=== FILE: README.md ===
# Derivatives tutor: pricing engine, payoff chart and chat guards in Dafny

This project models the deterministic core of a derivatives-education web
application and proves properties of that model:

- **`BlackScholes`**: the Black-Scholes-Merton price-and-Greeks engine, over
  the reals. It includes the Abramowitz & Stegun 26.2.17 approximation of the
  normal CDF with the engine's truncated coefficients, the clamp of the time
  to expiry, and the call and put branches. Theta is rescaled per calendar
  day; vega and rho are rescaled per percentage point. `Math.exp`,
  `Math.log` and `Math.sqrt` are fields of an `Analytic` parameter. Their
  subset types carry the only facts the algebra needs: exp and sqrt are
  positive, and ln and sqrt take positive arguments.
- **`PayoffChart`**: the expiry diagram. Spot prices run in steps of 2 from
  `max(0, strike - 50)` to `strike + 50`. Each point gets the intrinsic value
  and the long or short profit against the premium.
- **`GreeksDisplay`**: the five Greek tiles. Each value is multiplied by +1
  for a long position and by -1 for a short one. A `+` sign is shown only
  before strictly positive values.
- **`Validation`**: the client-side sanitizer and the message-shape
  validator. Also the history limit, including JavaScript's `slice(-0)` and
  negative-limit behaviour.
- **`Server`**: the chat endpoint's request logic:
  - the per-client fixed-window rate limiter, as a transition of a map;
  - the ordered input validator;
  - the server sanitizer;
  - the keep-the-last-20 cut;
  - the post-processing of the model's reply.
- **`Tutor`**: the chat widget's `handleSend`, split into two steps.
  - `Send` applies the guard sequence and the state update when a message
    leaves.
  - `Receive` appends the reply when it arrives.
  - Runs of events are used to state timing and history invariants.
- **`Js`** and **`Text`**: the JavaScript semantics these rely on.
  - `Js` models dynamic values, truthiness, property reads, `slice` and
    `Math.ceil(n / 1000)`.
  - `Text` models `trim` over the full JavaScript whitespace set, and global
    case-insensitive literal deletion (`replace(/lit/gi, '')`).
  - `Text` also models the deletion of `<script ...>...</script>` and
    `<iframe ...>...</iframe>` blocks. A block starts at `<tag` followed by
    a non-word character or the end of the text. It ends at the first
    `</tag>` after it, compared case-insensitively. Without a closing tag,
    nothing is deleted.

The sweep's lower end is clamped at 0 (components/PayoffChart.tsx:16).

## Model

| member | source | states |
|---|---|---|
| BlackScholes.TailVariable | services/greeks.ts:7 | the CDF's variable `1/(1 + 0.2316419 abs(x))` always lies in (0, 1] |
| BlackScholes.Tail | services/greeks.ts:7-9 | the tail mass `p` is positive at every point |
| BlackScholes.NormalCdf | services/greeks.ts:6-11 | the approximate CDF is positive at and below zero and below 1 above zero |
| BlackScholes.NormalPdf | services/greeks.ts:13-15 | the density is positive at every point |
| BlackScholes.TermsAt | services/greeks.ts:36-41 | the shared terms have a positive `N'(d1)`, and the discount factor is `exp(-r t)` |
| BlackScholes.Gamma | services/greeks.ts:57 | gamma is positive for positive spot and volatility |
| BlackScholes.RawVega | services/greeks.ts:58 | raw vega is positive for a positive spot |
| BlackScholes.GreeksAt | services/greeks.ts:43-68 | for either option type, at a positive time, gamma and vega are positive |
| BlackScholes.CalculateGreeks | services/greeks.ts:26-69 | for positive spot, strike and volatility, gamma and vega are positive whatever the time and rate |
| BlackScholes.TimeClamp | services/greeks.ts:34 | a non-positive time gives exactly the result for 0.000001; a positive time is used unchanged |
| BlackScholes.TailEven | services/greeks.ts:7-9 | the tail mass `p` is the same at `x` and `-x` |
| BlackScholes.CdfSymmetry | services/greeks.ts:6-11 | `N(x) + N(-x) == 1` for every `x != 0` |
| BlackScholes.CdfAtZeroIsNotHalf | services/greeks.ts:6-11 | at zero both arguments take the `p` branch, and with the truncated coefficients `N(0) + N(-0)` exceeds 1 |
| BlackScholes.TailPolynomialBounds | services/greeks.ts:9 | the A&S polynomial is positive and below 1.75 on (0, 1] |
| BlackScholes.TailBounds | services/greeks.ts:7-9 | when exp is at most 1 on the non-positives, the tail mass lies strictly in (0, 0.7) |
| BlackScholes.CdfInUnitInterval | services/greeks.ts:6-11 | under the same condition, the approximate CDF lies strictly in (0, 1) |
| BlackScholes.CallFromBondPart | services/greeks.ts:45-49 | the call's delta is `N(d1)`; its rho is `t (s delta - price)` and its theta is `-s N'(d1) sigma / (2 sqrt t) - r (s delta - price)` |
| BlackScholes.PutFromBondPart | services/greeks.ts:50-55 | the put's delta is `N(d1) - 1`; its rho and theta satisfy the same two identities as the call's |
| BlackScholes.RawParity | services/greeks.ts:45-55 | before scaling, the put branch is the call branch shifted: price by `s - k e^(-rt)`, delta by 1, theta by `r k e^(-rt)`, rho by `k t e^(-rt)` |
| BlackScholes.PutCallParity | services/greeks.ts:46-51 | call price minus put price is exactly `s - k exp(-r t)` at the clamped time |
| BlackScholes.PutDelta | services/greeks.ts:47-52 | put delta is call delta minus one |
| BlackScholes.GammaVegaShared | services/greeks.ts:57-58 | gamma and vega do not depend on the option type |
| BlackScholes.ThetaDifference | services/greeks.ts:48-64 | daily call theta minus daily put theta is `-r k exp(-r t) / 365` |
| BlackScholes.RhoDifference | services/greeks.ts:49-66 | call rho minus put rho is `k t exp(-r t) / 100` |
| BlackScholes.DeltaBounds | services/greeks.ts:39-52 | when exp is at most 1 on the non-positives, call delta lies in (0, 1) and put delta in (-1, 0) |
| BlackScholes.AtTheMoneyZeroRate | services/greeks.ts:46-51 | at the money with a zero rate, call and put cost the same |
| BlackScholes.UnitScaling | services/greeks.ts:61-68 | theta times 365, and vega and rho times 100, give back the raw values; price, delta and gamma are not rescaled |
| PayoffChart.Payoff | components/PayoffChart.tsx:20-25 | the payoff is never negative and is the in-the-money amount whenever it is positive |
| PayoffChart.Profit | components/PayoffChart.tsx:27 | either side breaks even exactly when the payoff equals the premium; the buyer gains exactly when the payoff exceeds it, the writer exactly when it falls short |
| PayoffChart.ChartData | components/PayoffChart.tsx:14-36 | one point per second dollar from `max(0, strike-50)` to at most `strike+50`, increasing by 2; 51 points when `strike >= 50`; each point carries its spot's payoff and profit |
| PayoffChart.CallMinusPut | components/PayoffChart.tsx:22-24 | call payoff minus put payoff is `spot - strike` at every spot |
| PayoffChart.LongShortNegation | components/PayoffChart.tsx:27 | at every point, long and short profits are exact negations |
| PayoffChart.ProfitBounds | components/PayoffChart.tsx:20-27 | the buyer never loses more than the premium, and the writer never gains more |
| GreeksDisplay.Multiplier | components/GreeksDisplay.tsx:11 | the multiplier is 1 exactly for long and -1 exactly for short |
| GreeksDisplay.GreekItems | components/GreeksDisplay.tsx:13-19 | exactly five tiles, Delta to Rho in order, each the engine's value times the multiplier |
| GreeksDisplay.SignPrefix | components/GreeksDisplay.tsx:30 | `+` appears iff the value is strictly positive; zero and negatives get nothing |
| GreeksDisplay.LongShowsEngineValues | components/GreeksDisplay.tsx:11-18 | a long position shows the engine's values unchanged |
| GreeksDisplay.ShortNegatesLong | components/GreeksDisplay.tsx:11-18 | a short position shows the same tiles with every value negated |
| GreeksDisplay.PriceNotShown | components/GreeksDisplay.tsx:13-19 | changing the engine's price leaves every tile unchanged, so no tile depends on it |
| Js.Get | utils/validation.ts:37-41 | a property read returns the stored field or `undefined`; a truthy read therefore means the value is an object holding that key |
| Js.SliceFrom | utils/validation.ts:54 | `slice(start)` keeps a suffix: the last `min(n, -start)` items for a negative start, and everything from `start` otherwise |
| Js.Take | utils/validation.ts:18 | `slice(0, n)` keeps the prefix of length `min(len, n)` |
| Js.CeilSeconds | server/index.ts:38 | the result is the least whole number of seconds covering the milliseconds |
| Text.FoldCase | utils/validation.ts:20-23 | the `/i` flag changes only `A`-`Z`, and a folded character is never an upper-case ASCII letter |
| Text.FoldCaseEquality | utils/validation.ts:20-23 | two characters match under `/i` exactly when they are equal or the upper- and lower-case forms of one ASCII letter |
| Text.FoldCaseIdempotent | utils/validation.ts:20-23 | folding a folded character changes nothing |
| Text.TrimStart | utils/validation.ts:17 | the result is the suffix left after the leading whitespace, and starts with a non-whitespace character |
| Text.TrimEnd | utils/validation.ts:17 | the result is the prefix left before the trailing whitespace, and ends with a non-whitespace character |
| Text.Trim | utils/validation.ts:17 | the result is an infix with only whitespace around it, starts and ends with non-whitespace, and is empty iff the input is all whitespace |
| Text.TrimIsSubsequence | utils/validation.ts:17 | trimming only deletes characters |
| Text.RemoveAll | utils/validation.ts:20-23 | a global literal deletion never lengthens the text |
| Text.RemoveAllDeletesWholeOccurrences | utils/validation.ts:20-23 | the text shrinks by exactly the literal's length for each occurrence the left-to-right scan removes |
| Text.RemoveAllIsReplaceScan | utils/validation.ts:20-23 | from any position, the deletion equals the global-replace loop: keep the text up to the next occurrence, skip the occurrence, continue after it |
| Text.RemoveAllAgreesWithGlobalReplace | utils/validation.ts:20-23 | the deletion of the whole text equals that loop started at 0, so the deleted characters are exactly the non-overlapping occurrences found left to right |
| Text.RemoveAllIsSubsequence | utils/validation.ts:20-23 | the remaining characters keep their order |
| Text.RemoveAllWithoutOccurrence | utils/validation.ts:20-23 | text with no occurrence, ignoring case, comes back unchanged |
| Text.FindFrom | utils/validation.ts:25 | a position it reports is at or after the start and holds a case-insensitive occurrence of the closing tag |
| Text.FindFromIsFirst | utils/validation.ts:25 | no occurrence lies between the start and the reported position, and none at all when it reports none |
| Text.BlockEnd | utils/validation.ts:25-26 | a block found at the front starts with the opening tag and spans at least both tags |
| Text.RemoveBlocks | utils/validation.ts:25-26 | deleting script or iframe blocks never lengthens the text |
| Text.RemoveBlocksIsSubsequence | utils/validation.ts:25-26 | block deletion keeps the remaining characters in order |
| Text.RemoveBlocksWithoutOpening | utils/validation.ts:25-26 | text without an opening tag comes back unchanged |
| Validation.StripMarkers | utils/validation.ts:20-23 | the four marker deletions never lengthen the text |
| Validation.StripMarkersIsSubsequence | utils/validation.ts:20-23 | the marker deletions keep the other characters in order |
| Validation.TrimAndTruncate | utils/validation.ts:16-18 | the result is the prefix of the trimmed text of length `min(trimmed length, 5000)` |
| Validation.SanitizeInput | utils/validation.ts:11-27 | a non-string gives `""`; a string gives at most 5000 characters, and no more than its trimmed length |
| Validation.SanitizeInputIsSubsequence | utils/validation.ts:16-26 | the output is a subsequence of the trimmed and truncated input |
| Validation.StripMarkersPlainText | utils/validation.ts:20-23 | text with neither `[` nor `<` has no marker removed |
| Validation.RemoveTagBlocksPlainText | utils/validation.ts:25-26 | text without `<` has no script or iframe block removed |
| Validation.TrimAndTruncateChars | utils/validation.ts:16-18 | every character of the trimmed and truncated text comes from the input |
| Validation.SanitizeInputPlainText | utils/validation.ts:11-27 | for text with neither `[` nor `<`, sanitizing only trims and truncates |
| Validation.IsValidMessage | utils/validation.ts:32-45 | true iff the value is an object whose role is `user` or `assistant` and whose content is a string of 1 to 5000 characters |
| Validation.LimitConversationHistory | utils/validation.ts:50-55 | a history that fits is returned unchanged; a positive limit keeps the last `limit` entries; 0 keeps everything; a negative limit drops the first `-limit` entries |
| Validation.LimitConversationHistoryDefault | utils/validation.ts:50-55 | by default the last `min(n, 20)` entries are kept |
| Server.ClientId | server/index.ts:25 | the key is never empty; it is the address when there is one, and `unknown` otherwise |
| Server.ClientIdSeparatesAddresses | server/index.ts:25 | all requests without an address share one key, and two addresses share a key only when they are equal |
| Server.RateLimit | server/index.ts:24-44 | only the client's entry can change; it is reset to count 1 when absent or strictly past its window; a full window is refused with the store unchanged and `retryAfter` the remaining seconds rounded up; otherwise the count grows by one |
| Server.RateLimitKeepsCountsInRange | server/index.ts:31-43 | every stored count stays between 1 and 10 |
| Server.WindowBudget | server/index.ts:30-43 | while a window is open, at most `10 - count` more requests are admitted |
| Server.FreshWindowBudget | server/index.ts:19-44 | at most 10 requests per client pass in one window |
| Server.Status | server/index.ts:50-77 | every input error answers 400 or 500, and 500 exactly for the TypeError the error handler catches (server/index.ts:180-183) |
| Server.ErrorTextsDistinct | server/index.ts:50-77 | the error texts are pairwise different, so each error can be told apart by its text |
| Server.CheckMessage | server/index.ts:63-79 | a message passes iff the client's `isValidMessage` accepts it; otherwise the first failing check in source order names the error: missing role or content, then a role other than `user`/`assistant`, then non-string content, then content over 5000 characters; only `null` or `undefined` gives the TypeError; an array-level error is never reported for a message |
| Server.CheckMessageAgreesWithClient | server/index.ts:63-79 | the server's per-message checks accept exactly the messages the client's `isValidMessage` accepts |
| Server.AsChatMessage | server/index.ts:118-121 | a checked message becomes a record with the same content and role |
| Server.ValidateChatInput | server/index.ts:47-82 | a non-array, empty or over-50 input fails with that error; the input passes iff every message passes, and then yields each message as a typed record in order; otherwise the first failing message names the error |
| Server.SanitizeMessage | server/index.ts:85-94 | the result has at most 5000 characters |
| Server.SanitizeMessageIsSubsequence | server/index.ts:85-94 | server sanitizing only deletes from the trimmed and truncated text |
| Server.ClientSanitizerRefinesServer | server/index.ts:85-94 | the client sanitizer's output is a subsequence of the server sanitizer's output |
| Server.SanitizeAll | server/index.ts:118-121 | every message keeps its role and position and has its content sanitized |
| Server.MapContents | server/index.ts:118-121 | a content map keeps the number, order and roles of the messages and applies the function to each content |
| Server.MapContentsOfLast | server/index.ts:118-124 | mapping the last `min(n, limit)` messages gives, at each position `i`, message `n - |r| + i` mapped |
| Server.ForwardedMessages | server/index.ts:117-124 | the last `min(n, 20)` messages are forwarded in order, roles kept and contents sanitized |
| Server.ForwardedIsMapThenSlice | server/index.ts:118-124 | sanitizing every message and then taking `slice(-20)` yields exactly the forwarded messages |
| Server.FirstFailureUnique | server/index.ts:63-79 | at most one element is the first to fail the per-message checks |
| Server.ValidateAndForward | server/index.ts:47-124 | after the limiter: a request fails with the validator's error exactly when validation fails; otherwise it carries the forwarded form of its own messages, 1 to 20 of them, of at most 5000 characters each |
| Server.HandleChat | server/index.ts:113-124 | the rate limiter runs first: the answer is 429 exactly when the window is full, with its `retryAfter`, and then nothing is validated; the store is updated as the limiter says whether or not validation then passes; an admitted request is rejected with the validator's error, answering 500 exactly when the first failing element is `null` or `undefined`, or forwarded as the request's own messages |
| Server.ReplyText | server/index.ts:151-156 | a missing or empty text becomes the fallback; any other text is cut to 10000 characters and trimmed |
| Server.FallbackKeptWhole | server/index.ts:151-156 | cutting and trimming leave the fallback reply whole |
| Tutor.Send | components/AITutor.tsx:27-57 | a message is sent iff the trimmed input is non-empty, no answer is pending, 2 s have passed, the raw input fits, and the sanitized input is non-empty; every refusal leaves the state unchanged; a send appends the sanitized message, clears the box, marks busy and records the time; a press that is not ignored within 2 s of the last request is answered with a wait; after the rate check, a raw input over 5000 characters is refused as too long before sanitizing is tried, and the empty-content alert comes exactly when the raw input fits but sanitizes to nothing |
| Tutor.Receive | components/AITutor.tsx:59-68 | exactly one assistant message is appended: the sanitized reply, or the fallback when that is empty; the widget is no longer busy |
| Tutor.WaitIsOneOrTwoSeconds | components/AITutor.tsx:32-37 | with a clock that does not run backwards, the wait shown is 1 or 2 seconds |
| Tutor.TooLongOnlyAfterRateCheck | components/AITutor.tsx:29-43 | the length alert only comes after the rate check has passed |
| Tutor.NoSecondRequestWhilePending | components/AITutor.tsx:29-57 | while an answer is pending, every press is ignored |
| Tutor.SendsAreSpaced | components/AITutor.tsx:32-57 | along any run, requests leave at least 2000 ms apart, and the first leaves at least 2000 ms after the recorded time |
| Tutor.InitialHistoryBounded | components/AITutor.tsx:10-12 | the greeting is a non-empty message within the limit |
| Tutor.StepKeepsHistoryBounded | components/AITutor.tsx:27-68 | each event keeps every message in the history non-empty and at most 5000 characters |
| Tutor.RunKeepsHistoryBounded | components/AITutor.tsx:27-68 | this holds along any run of events |

## Left out

- Floating point: the engine is modelled over exact reals. IEEE-754 rounding, NaN and Infinity are not modelled, and neither are the engine's outputs for `s <= 0`, `k <= 0` or `sigma <= 0`. The engine therefore requires positive spot, strike and volatility. `JsNumber` carries no NaN, so `NaN` is not a falsy value here.
- `Math.exp`, `Math.log`, `Math.sqrt` are parameters, and only their positivity is known. The CDF and delta bounds additionally assume `exp(y) <= 1` for `y <= 0`. Concrete prices and the accuracy of the approximation are not stated.
- BlackScholes.AtTheMoneyZeroRate: assumes `exp(0) == 1`, since the engine's `exp` is a parameter.
- BlackScholes.CdfAtZeroIsNotHalf: assumes `exp(0) == 1` for the same reason.
- PayoffChart.ChartData: the strike and the spot prices are whole numbers. A fractional strike would give fractional spot prices, which are not modelled.
- String lengths count Unicode scalar values, not the UTF-16 code units JavaScript counts. Text outside the Basic Multilingual Plane therefore has a different `length`.
- Case folding: the `/i` flag is modelled on ASCII letters. Non-ASCII case pairs never fold onto the ASCII letters of the markers and tags, so the deletions are unaffected.
- The script/iframe regexes are modelled by their matches: from `<tag` plus a word boundary to the first `</tag>` after it. The regex's backtracking search itself is not modelled.
- `DOMPurify.sanitize` (components/AITutor.tsx:72-77) is a foreign library and is not part of this model.
- The network: services/gemini.ts, `getAIClient` and `generateContent` are not part of this model. The prompt text, `express.json`, CORS, `app.listen`, the health and 404 routes, and the thrown missing-API-key error are not modelled either. Only the validator's TypeError on a `null` or `undefined` element is modelled, as the 500 of the error handler (server/index.ts:180-183).
- The rate-limit store is passed into `Server.HandleChat` and returned from it, instead of living in a module-level `Map`. The 429 body's text and the `retryAfter` JSON field are represented by the `Throttled` outcome.
- The clock and alerts: `Date.now()` and the AI reply are parameters. `alert` messages become outcomes. React state hooks, scrolling, JSX and `toFixed(3)` formatting are not modelled, nor are tile colours and descriptions.
- `Tutor.Receive` models the reply arriving at once. The asynchronous interleaving in which state changes between send and reply is not modelled. In a run, an answer event is ignored unless one is pending.
- App.tsx, components/Sidebar.tsx, constants.tsx, vite.config.ts and types.ts are UI wiring, static data and declarations. `ChatMessage` and `PayoffData` are mirrored as datatypes.
- The server handler's `messages.map` runs only after validation. The model therefore sanitizes typed messages, not arbitrary JSON.

=== FILE: black_scholes.dfy ===
/**
 * The Black-Scholes-Merton price-and-Greeks engine (services/greeks.ts),
 * over the reals. `Math.exp`, `Math.log` and `Math.sqrt` are not
 * computable here; they enter as the fields of an `Analytic` value whose
 * types carry the only facts the algebra needs: `exp` is positive
 * everywhere, `ln` and `sqrt` are applied to positive arguments, and
 * `sqrt` of a positive number is positive.
 */
module BlackScholes {

  import opened Types

  type PosReal = x: real | x > 0.0 witness 1.0

  /** The transcendental functions of JavaScript's `Math` used by the engine. */
  datatype Analytic = Analytic(exp: real -> PosReal, ln: PosReal -> real, sqrt: PosReal -> PosReal)

  /** `Math.PI` as a double. */
  const PI: real := 3.141592653589793

  /** The time substituted for an expired or negative time to expiration. */
  const MIN_TIME: PosReal := 0.000001

  /** The sensitivities and price returned by the engine (`Greeks`). */
  datatype Greeks = Greeks(delta: real, gamma: real, theta: real, vega: real, rho: real, price: real)

  function Abs(x: real): real { if x < 0.0 then -x else x }

  /**
   * The polynomial of formula 26.2.17 of Abramowitz & Stegun in the variable
   * `t = 1/(1 + 0.2316419|x|)`, with the coefficients exactly as the engine
   * writes them.
   */
  function TailPolynomial(t: real): real {
    0.3193815 + t * (-0.3565638 + t * (1.7814779 + t * (-1.821256 + t * 1.3302745)))
  }

  /** `1/(1 + 0.2316419|x|)`, which lies in (0, 1]. */
  function TailVariable(x: real): (t: real)
    ensures 0.0 < t <= 1.0
  {
    var a := Abs(x);
    assert 1.0 + 0.2316419 * a >= 1.0;
    1.0 / (1.0 + 0.2316419 * a)
  }

  /** The approximated upper tail mass `p`, a function of `|x|` and `x*x` only; it is always positive. */
  function Tail(m: Analytic, x: real): (p: real)
    ensures p > 0.0
  {
    var t := TailVariable(x);
    var d := 0.3989423 * m.exp(-x * x / 2.0);
    TailPolynomialBounds(t);
    PositiveProduct(d, t);
    PositiveProduct(d * t, TailPolynomial(t));
    d * t * TailPolynomial(t)
  }

  /**
   * `normalCDF`: `1 - p` above zero and `p` at or below zero, so it is
   * positive on the non-positives and below 1 on the positives.
   */
  function NormalCdf(m: Analytic, x: real): (c: real)
    ensures x <= 0.0 ==> c > 0.0
    ensures x > 0.0 ==> c < 1.0
  {
    var p := Tail(m, x);
    if x > 0.0 then 1.0 - p else p
  }

  /** `normalPDF`: the standard normal density, positive everywhere. */
  function NormalPdf(m: Analytic, x: real): (r: real)
    ensures r > 0.0
  {
    m.exp(-0.5 * x * x) / m.sqrt(2.0 * PI)
  }

  /** The time the engine actually prices with: `t`, or `MIN_TIME` when `t <= 0`. */
  function EffectiveTime(t: real): PosReal {
    if t <= 0.0 then MIN_TIME else t
  }

  /** The quantities both branches share, at an effective time `u > 0`. */
  datatype Terms = Terms(sqrtT: PosReal, d1: real, d2: real, nD1: real, nD2: real, npD1: real, disc: PosReal)

  /** Price, delta, annual theta and per-unit rho, before the unit conventions. */
  datatype Raw = Raw(price: real, delta: real, theta: real, rho: real)

  lemma PositiveProduct(a: real, b: real)
    requires a > 0.0 && b > 0.0
    ensures a * b > 0.0
  {
  }

  /** `d1 = (ln(s/k) + (r + sigma^2/2) u) / (sigma sqrt(u))`. */
  function D1(m: Analytic, s: real, k: real, u: PosReal, r: real, sigma: real): real
    requires s > 0.0 && k > 0.0 && sigma > 0.0
  {
    PositiveProduct(sigma, m.sqrt(u));
    (m.ln(s / k) + (r + (sigma * sigma) / 2.0) * u) / (sigma * m.sqrt(u))
  }

  function TermsAt(m: Analytic, s: real, k: real, u: PosReal, r: real, sigma: real): (tm: Terms)
    requires s > 0.0 && k > 0.0 && sigma > 0.0
    ensures tm.npD1 > 0.0 && tm.disc == m.exp(-r * u)
  {
    var sqrtT := m.sqrt(u);
    var d1 := D1(m, s, k, u, r, sigma);
    var d2 := d1 - sigma * sqrtT;
    Terms(sqrtT, d1, d2, NormalCdf(m, d1), NormalCdf(m, d2), NormalPdf(m, d1), m.exp(-r * u))
  }

  /** The call branch of the engine. */
  function CallRaw(tm: Terms, s: real, k: real, u: PosReal, r: real, sigma: real): Raw {
    Raw(s * tm.nD1 - k * tm.disc * tm.nD2,
        tm.nD1,
        -(s * tm.npD1 * sigma) / (2.0 * tm.sqrtT) - r * k * tm.disc * tm.nD2,
        k * u * tm.disc * tm.nD2)
  }

  /** The put branch, which evaluates `normalCDF(d2)` a second time. */
  function PutRaw(m: Analytic, tm: Terms, s: real, k: real, u: PosReal, r: real, sigma: real): Raw {
    var nD2 := NormalCdf(m, tm.d2);
    Raw(k * tm.disc * (1.0 - nD2) - s * (1.0 - tm.nD1),
        tm.nD1 - 1.0,
        -(s * tm.npD1 * sigma) / (2.0 * tm.sqrtT) + r * k * tm.disc * (1.0 - nD2),
        -k * u * tm.disc * (1.0 - nD2))
  }

  /** Gamma, which needs `s*sigma*sqrt(u) > 0`. */
  function Gamma(tm: Terms, s: real, sigma: real): (g: real)
    requires s > 0.0 && sigma > 0.0 && tm.npD1 > 0.0
    ensures g > 0.0
  {
    PositiveProduct(s, sigma);
    PositiveProduct(s * sigma, tm.sqrtT);
    tm.npD1 / (s * sigma * tm.sqrtT)
  }

  /** Raw vega, `s*sqrt(u)*N'(d1)`. */
  function RawVega(tm: Terms, s: real): (v: real)
    requires s > 0.0 && tm.npD1 > 0.0
    ensures v > 0.0
  {
    PositiveProduct(s, tm.sqrtT);
    PositiveProduct(s * tm.sqrtT, tm.npD1);
    s * tm.sqrtT * tm.npD1
  }

  /** The engine at an effective time `u > 0`, after the clamp. */
  function GreeksAt(m: Analytic, s: real, k: real, u: PosReal, r: real, sigma: real, kind: OptionKind): (g: Greeks)
    requires s > 0.0 && k > 0.0 && sigma > 0.0
    ensures g.gamma > 0.0 && g.vega > 0.0
  {
    var tm := TermsAt(m, s, k, u, r, sigma);
    var raw := match kind
      case Call => CallRaw(tm, s, k, u, r, sigma)
      case Put => PutRaw(m, tm, s, k, u, r, sigma);
    Greeks(raw.delta, Gamma(tm, s, sigma), raw.theta / 365.0, RawVega(tm, s) / 100.0, raw.rho / 100.0, raw.price)
  }

  /**
   * `calculateGreeks`: the price and Greeks of a European option; theta is
   * reported per calendar day, vega and rho per percentage point. Gamma
   * and vega are always positive.
   */
  function CalculateGreeks(m: Analytic, s: real, k: real, t: real, r: real, sigma: real, kind: OptionKind): (g: Greeks)
    requires s > 0.0 && k > 0.0 && sigma > 0.0
    ensures g.gamma > 0.0 && g.vega > 0.0
  {
    GreeksAt(m, s, k, EffectiveTime(t), r, sigma, kind)
  }

  // ------------------------------------------------------------ the clamp

  /** A non-positive time prices exactly like `MIN_TIME`; a positive one is used as given. */
  lemma TimeClamp(m: Analytic, s: real, k: real, t: real, r: real, sigma: real, kind: OptionKind)
    requires s > 0.0 && k > 0.0 && sigma > 0.0
    ensures t <= 0.0 ==> CalculateGreeks(m, s, k, t, r, sigma, kind) == CalculateGreeks(m, s, k, MIN_TIME, r, sigma, kind)
    ensures t > 0.0 ==> CalculateGreeks(m, s, k, t, r, sigma, kind) == GreeksAt(m, s, k, t, r, sigma, kind)
  {
  }

  // ------------------------------------------------------- the normal CDF

  /** The tail mass depends on `x` only through `|x|` and `x*x`. */
  lemma TailEven(m: Analytic, x: real)
    ensures Tail(m, x) == Tail(m, -x)
  {
    assert -x * x / 2.0 == -(-x) * (-x) / 2.0;
    assert Abs(x) == Abs(-x);
  }

  /** `normalCDF(x) + normalCDF(-x) == 1` away from zero. */
  lemma CdfSymmetry(m: Analytic, x: real)
    requires x != 0.0
    ensures NormalCdf(m, x) + NormalCdf(m, -x) == 1.0
  {
    TailEven(m, x);
  }

  /**
   * At zero both arguments take the `p` branch, and with the truncated
   * coefficients `2p` lands just above 1, so the symmetry above really
   * needs `x != 0`.
   */
  lemma CdfAtZeroIsNotHalf(m: Analytic)
    requires m.exp(0.0) == 1.0
    ensures NormalCdf(m, 0.0) + NormalCdf(m, -0.0) > 1.0
  {
    assert TailVariable(0.0) == 1.0;
    assert TailPolynomial(1.0) == 1.2533141;
  }

  /** The one property of `exp` beyond positivity used for the CDF bounds. */
  ghost predicate ExpAtMostOneBelowZero(m: Analytic) {
    forall y :: y <= 0.0 ==> m.exp(y) <= 1.0
  }

  /** Multiplying by a factor in (0, 1] moves a number towards zero. */
  lemma ShrinkTowardZero(t: real, q: real)
    requires 0.0 < t <= 1.0
    ensures q >= 0.0 ==> 0.0 <= t * q <= q
    ensures q <= 0.0 ==> q <= t * q <= 0.0
  {
  }

  /** Multiplying by a factor at least `lo > 0` keeps a positive number above `lo` times it. */
  lemma ScaleBelow(t: real, lo: real, q: real)
    requires 0.0 < lo <= t && q >= 0.0
    ensures t * q >= lo * q
  {
  }

  /** The polynomial is positive and below 1.75 wherever its variable can be. */
  lemma TailPolynomialBounds(t: real)
    requires 0.0 < t <= 1.0
    ensures 0.0 < TailPolynomial(t) < 1.75
  {
    var q4 := -1.821256 + t * 1.3302745;
    var q3 := 1.7814779 + t * q4;
    var q2 := -0.3565638 + t * q3;
    assert TailPolynomial(t) == 0.3193815 + t * q2;
    assert q4 < 0.0;
    ShrinkTowardZero(t, q4);
    assert q3 <= 1.7814779;
    ShrinkTowardZero(t, q3);
    assert q2 <= 1.4249141;
    ShrinkTowardZero(t, q2);
    if t <= 0.5 {
      assert q4 >= -1.821256;
      assert t * q4 >= -0.910628 by {
        assert t * (-q4) <= 0.5 * (-q4) by { ScaleBelow(0.5, t, -q4); }
      }
      assert q3 > 0.0;
      assert t * q2 >= -0.1782819 by {
        if q2 < 0.0 {
          assert q2 >= -0.3565638;
          ScaleBelow(0.5, t, -q2);
        }
      }
    } else {
      assert q4 >= -1.15611875;
      assert t * q4 >= -1.15611875;
      assert q3 >= 0.62535915;
      ScaleBelow(t, 0.5, q3);
      assert t * q3 >= 0.3126795;
      assert q2 >= -0.0438843;
      assert t * q2 >= -0.0438843;
    }
  }

  lemma TailBounds(m: Analytic, x: real)
    requires ExpAtMostOneBelowZero(m)
    ensures 0.0 < Tail(m, x) < 0.7
  {
    var t := TailVariable(x);
    var e := m.exp(-x * x / 2.0);
    assert -x * x / 2.0 <= 0.0;
    assert e <= 1.0;
    TailPolynomialBounds(t);
    var q := TailPolynomial(t);
    ShrinkTowardZero(t, q);
    PositiveProduct(t, q);
    ShrinkTowardZero(e, t * q);
    PositiveProduct(e, t * q);
    assert Tail(m, x) == 0.3989423 * (e * (t * q));
  }

  /** With `exp` at most 1 on the negatives, the approximation lies strictly inside (0, 1). */
  lemma CdfInUnitInterval(m: Analytic, x: real)
    requires ExpAtMostOneBelowZero(m)
    ensures 0.0 < NormalCdf(m, x) < 1.0
  {
    TailBounds(m, x);
  }

  // ------------------------------------------------ call/put relationships

  /**
   * The call and put branches in terms of one another: the put's price,
   * delta, theta and rho are the call's shifted by the parity terms.
   */
  lemma RawParity(m: Analytic, s: real, k: real, u: PosReal, r: real, sigma: real)
    requires s > 0.0 && k > 0.0 && sigma > 0.0
    ensures var tm := TermsAt(m, s, k, u, r, sigma);
      var c := CallRaw(tm, s, k, u, r, sigma);
      var p := PutRaw(m, tm, s, k, u, r, sigma);
      && c.price - p.price == s - k * tm.disc
      && p.delta == c.delta - 1.0
      && c.theta - p.theta == -(r * k * tm.disc)
      && c.rho - p.rho == k * u * tm.disc
  {
    var tm := TermsAt(m, s, k, u, r, sigma);
    var n1, n2, kd := tm.nD1, tm.nD2, k * tm.disc;
    assert NormalCdf(m, tm.d2) == n2;
    assert (s * n1 - kd * n2) - (kd * (1.0 - n2) - s * (1.0 - n1)) == s - kd;
    var rkd := r * k * tm.disc;
    assert -rkd * n2 - rkd * (1.0 - n2) == -rkd;
    var kud := k * u * tm.disc;
    assert kud * n2 + kud * (1.0 - n2) == kud;
  }

  /**
   * The call branch's delta is `N(d1)`; its rho is `u` times the bond part
   * `s*delta - price`, and its theta is the time-decay term less `r` times
   * that bond part.
   */
  lemma CallFromBondPart(tm: Terms, s: real, k: real, u: PosReal, r: real, sigma: real)
    ensures var c := CallRaw(tm, s, k, u, r, sigma);
      && c.delta == tm.nD1
      && c.rho == u * (s * c.delta - c.price)
      && c.theta == -(s * tm.npD1 * sigma) / (2.0 * tm.sqrtT) - r * (s * c.delta - c.price)
  {
  }

  /**
   * The put branch's delta is `N(d1) - 1`, and its rho and theta relate to
   * the bond part `s*delta - price` exactly as the call's do.
   */
  lemma PutFromBondPart(m: Analytic, tm: Terms, s: real, k: real, u: PosReal, r: real, sigma: real)
    ensures var p := PutRaw(m, tm, s, k, u, r, sigma);
      && p.delta == tm.nD1 - 1.0
      && p.rho == u * (s * p.delta - p.price)
      && p.theta == -(s * tm.npD1 * sigma) / (2.0 * tm.sqrtT) - r * (s * p.delta - p.price)
  {
  }

  /** Put-call parity holds exactly: call minus put is `s - k*e^(-rt)`. */
  lemma PutCallParity(m: Analytic, s: real, k: real, t: real, r: real, sigma: real)
    requires s > 0.0 && k > 0.0 && sigma > 0.0
    ensures var u := EffectiveTime(t);
      CalculateGreeks(m, s, k, t, r, sigma, Call).price - CalculateGreeks(m, s, k, t, r, sigma, Put).price
        == s - k * m.exp(-r * u)
  {
    UnitScaling(m, s, k, t, r, sigma, Call);
    UnitScaling(m, s, k, t, r, sigma, Put);
    RawParity(m, s, k, EffectiveTime(t), r, sigma);
  }

  /** The put's delta is the call's delta minus one. */
  lemma PutDelta(m: Analytic, s: real, k: real, t: real, r: real, sigma: real)
    requires s > 0.0 && k > 0.0 && sigma > 0.0
    ensures CalculateGreeks(m, s, k, t, r, sigma, Put).delta == CalculateGreeks(m, s, k, t, r, sigma, Call).delta - 1.0
  {
    RawParity(m, s, k, EffectiveTime(t), r, sigma);
  }

  /** Gamma and vega are the same for a call and a put. */
  lemma GammaVegaShared(m: Analytic, s: real, k: real, t: real, r: real, sigma: real)
    requires s > 0.0 && k > 0.0 && sigma > 0.0
    ensures var c := CalculateGreeks(m, s, k, t, r, sigma, Call);
      var p := CalculateGreeks(m, s, k, t, r, sigma, Put);
      c.gamma == p.gamma && c.vega == p.vega
  {
  }

  /** Daily call theta minus daily put theta is `-r*k*e^(-rt)/365`. */
  lemma ThetaDifference(m: Analytic, s: real, k: real, t: real, r: real, sigma: real)
    requires s > 0.0 && k > 0.0 && sigma > 0.0
    ensures var u := EffectiveTime(t);
      CalculateGreeks(m, s, k, t, r, sigma, Call).theta - CalculateGreeks(m, s, k, t, r, sigma, Put).theta
        == -r * k * m.exp(-r * u) / 365.0
  {
    UnitScaling(m, s, k, t, r, sigma, Call);
    UnitScaling(m, s, k, t, r, sigma, Put);
    RawParity(m, s, k, EffectiveTime(t), r, sigma);
  }

  /** Call rho minus put rho (per percentage point) is `k*t*e^(-rt)/100`. */
  lemma RhoDifference(m: Analytic, s: real, k: real, t: real, r: real, sigma: real)
    requires s > 0.0 && k > 0.0 && sigma > 0.0
    ensures var u := EffectiveTime(t);
      CalculateGreeks(m, s, k, t, r, sigma, Call).rho - CalculateGreeks(m, s, k, t, r, sigma, Put).rho
        == k * u * m.exp(-r * u) / 100.0
  {
    UnitScaling(m, s, k, t, r, sigma, Call);
    UnitScaling(m, s, k, t, r, sigma, Put);
    RawParity(m, s, k, EffectiveTime(t), r, sigma);
  }

  /** Call delta lies in (0, 1) and put delta in (-1, 0). */
  lemma DeltaBounds(m: Analytic, s: real, k: real, t: real, r: real, sigma: real)
    requires s > 0.0 && k > 0.0 && sigma > 0.0
    requires ExpAtMostOneBelowZero(m)
    ensures 0.0 < CalculateGreeks(m, s, k, t, r, sigma, Call).delta < 1.0
    ensures -1.0 < CalculateGreeks(m, s, k, t, r, sigma, Put).delta < 0.0
  {
    CdfInUnitInterval(m, TermsAt(m, s, k, EffectiveTime(t), r, sigma).d1);
  }

  /** At the money with a zero rate, call and put cost the same. */
  lemma AtTheMoneyZeroRate(m: Analytic, s: real, t: real, sigma: real)
    requires s > 0.0 && sigma > 0.0
    requires m.exp(0.0) == 1.0
    ensures CalculateGreeks(m, s, s, t, 0.0, sigma, Call).price == CalculateGreeks(m, s, s, t, 0.0, sigma, Put).price
  {
    PutCallParity(m, s, s, t, 0.0, sigma);
    assert -0.0 * EffectiveTime(t) == 0.0;
  }

  // --------------------------------------------------------- unit scaling

  /**
   * Undoing the unit conventions recovers the branch's raw values: theta
   * times 365 is the annual theta, vega and rho times 100 are the per-unit
   * sensitivities, and price, delta and gamma are passed through unscaled.
   */
  lemma UnitScaling(m: Analytic, s: real, k: real, t: real, r: real, sigma: real, kind: OptionKind)
    requires s > 0.0 && k > 0.0 && sigma > 0.0
    ensures var u := EffectiveTime(t);
      var tm := TermsAt(m, s, k, u, r, sigma);
      var raw := if kind == Call then CallRaw(tm, s, k, u, r, sigma) else PutRaw(m, tm, s, k, u, r, sigma);
      var g := CalculateGreeks(m, s, k, t, r, sigma, kind);
      && g.price == raw.price
      && g.delta == raw.delta
      && g.gamma == tm.npD1 / (s * sigma * tm.sqrtT)
      && g.theta * 365.0 == raw.theta
      && g.vega * 100.0 == s * tm.sqrtT * tm.npD1
      && g.rho * 100.0 == raw.rho
  {
  }
}

=== FILE: greeks_display.dfy ===
/**
 * The Greek tiles of components/GreeksDisplay.tsx: five of the engine's
 * outputs, multiplied by +1 for a long and -1 for a short position, with a
 * `+` sign shown before strictly positive values. The price is not shown.
 */
module GreeksDisplay {

  import opened Types
  import opened BlackScholes

  /** One tile: its name and the signed value shown. */
  datatype GreekItem = GreekItem(name: string, value: real)

  const LABELS: seq<string> := ["Delta", "Gamma", "Theta", "Vega", "Rho"]

  /** `multiplier`: 1 for a long position, -1 for a short one. */
  function Multiplier(position: Position): (k: real)
    ensures k == 1.0 <==> position == Long
    ensures k == -1.0 <==> position == Short
  {
    match position
    case Long => 1.0
    case Short => -1.0
  }

  /** The engine's value behind the tile named `LABELS[i]`. */
  function Field(g: Greeks, i: nat): real
    requires i < 5
  {
    [g.delta, g.gamma, g.theta, g.vega, g.rho][i]
  }

  /** `greekItems`: Delta, Gamma, Theta, Vega, Rho in that order, each times the multiplier. */
  function GreekItems(g: Greeks, position: Position): (items: seq<GreekItem>)
    ensures |items| == 5
    ensures forall i :: 0 <= i < 5 ==> items[i].name == LABELS[i]
    ensures forall i :: 0 <= i < 5 ==> items[i].value == Field(g, i) * Multiplier(position)
  {
    var k := Multiplier(position);
    [ GreekItem("Delta", g.delta * k),
      GreekItem("Gamma", g.gamma * k),
      GreekItem("Theta", g.theta * k),
      GreekItem("Vega", g.vega * k),
      GreekItem("Rho", g.rho * k) ]
  }

  /** The sign shown before a value: `+` exactly when it is strictly positive. */
  function SignPrefix(v: real): (p: string)
    ensures p == "+" <==> v > 0.0
    ensures p == "" <==> v <= 0.0
  {
    if v > 0.0 then "+" else ""
  }

  /** A long position shows the engine's values unchanged. */
  lemma LongShowsEngineValues(g: Greeks)
    ensures forall i :: 0 <= i < 5 ==> GreekItems(g, Long)[i].value == Field(g, i)
  {
  }

  /** A short position shows exactly the negations of the long tiles. */
  lemma ShortNegatesLong(g: Greeks)
    ensures forall i :: 0 <= i < 5 ==>
      GreekItems(g, Short)[i].name == GreekItems(g, Long)[i].name
      && GreekItems(g, Short)[i].value == -GreekItems(g, Long)[i].value
  {
  }

  /** The price is neither shown nor flipped: the tiles do not depend on it. */
  lemma PriceNotShown(g: Greeks, position: Position, p: real)
    ensures GreekItems(g.(price := p), position) == GreekItems(g, position)
  {
  }
}

=== FILE: js.dfy ===
/**
 * The fragment of JavaScript's value semantics the validators rely on:
 * dynamically typed values, truthiness, property reads and
 * `Array.prototype.slice` / `String.prototype.slice` bounds.
 */
module Js {

  /**
   * A JSON-shaped JavaScript value, as it arrives in a parsed request body
   * or as an `unknown` argument. NaN is not represented (see README).
   */
  datatype JsValue =
    | JsUndefined
    | JsNull
    | JsBool(b: bool)
    | JsNumber(n: real)
    | JsString(s: string)
    | JsArray(items: seq<JsValue>)
    | JsObject(fields: map<string, JsValue>)

  /** `undefined` and `null`: the values whose property reads throw a TypeError. */
  predicate IsNullish(v: JsValue) {
    v.JsUndefined? || v.JsNull?
  }

  /** `typeof v === 'object' && v !== null`: arrays are objects too. */
  predicate IsObject(v: JsValue) {
    v.JsObject? || v.JsArray?
  }

  /** JavaScript truthiness: `false`, `0`, `""`, `null` and `undefined` are falsy. */
  predicate Truthy(v: JsValue) {
    match v
    case JsUndefined => false
    case JsNull => false
    case JsBool(b) => b
    case JsNumber(n) => n != 0.0
    case JsString(s) => |s| > 0
    case JsArray(_) => true
    case JsObject(_) => true
  }

  /**
   * `v[key]` for an own data property of a non-nullish value. Only objects
   * carry the keys this model reads (`role`, `content`); on every other
   * value those keys read as `undefined`.
   */
  function Get(v: JsValue, key: string): (r: JsValue)
    requires !IsNullish(v)
    ensures v.JsObject? && key in v.fields ==> r == v.fields[key]
    ensures !(v.JsObject? && key in v.fields) ==> r == JsUndefined
    ensures Truthy(r) ==> v.JsObject? && key in v.fields
  {
    if v.JsObject? && key in v.fields then v.fields[key] else JsUndefined
  }

  function Min(a: int, b: int): int { if a <= b then a else b }

  /**
   * `s.slice(start)` with an integer `start`: a negative start counts from
   * the end and is clamped at 0, so `slice(-0)` is the whole sequence.
   */
  function SliceFrom<T>(s: seq<T>, start: int): (r: seq<T>)
    ensures start < 0 ==> |r| == Min(|s|, -start)
    ensures start >= 0 ==> |r| == if start <= |s| then |s| - start else 0
    ensures r == s[|s| - |r|..]
  {
    if start < 0 then
      (if |s| + start < 0 then s else s[|s| + start..])
    else if start <= |s| then s[start..]
    else []
  }

  /** `s.slice(0, n)` for a non-negative `n`. */
  function Take<T>(s: seq<T>, n: nat): (r: seq<T>)
    ensures |r| == Min(|s|, n)
    ensures r == s[..|r|]
  {
    if |s| <= n then s else s[..n]
  }

  /** `Math.ceil(n / 1000)` for a whole number of milliseconds `n`: the seconds, rounded up. */
  function CeilSeconds(n: int): (q: int)
    ensures 1000 * (q - 1) < n <= 1000 * q
  {
    -((-n) / 1000)
  }
}

=== FILE: payoff_chart.dfy ===
/**
 * The expiry diagram of components/PayoffChart.tsx: intrinsic value and
 * profit of a single option at whole-dollar spot prices swept in steps of
 * 2 from `max(0, strike - 50)` to `strike + 50`.
 */
module PayoffChart {

  import opened Types

  /** Half the width of the swept spot range, and the step between points. */
  const HALF_RANGE: int := 50
  const STEP: int := 2

  function MinSpot(strike: int): int {
    if strike - HALF_RANGE > 0 then strike - HALF_RANGE else 0
  }

  function MaxSpot(strike: int): int {
    strike + HALF_RANGE
  }

  /** Intrinsic value at expiry: never negative, and the in-the-money amount when positive. */
  function Payoff(kind: OptionKind, strike: int, spot: int): (p: int)
    ensures p >= 0
    ensures kind == Call ==> p >= spot - strike && (p == 0 || p == spot - strike)
    ensures kind == Put ==> p >= strike - spot && (p == 0 || p == strike - spot)
  {
    match kind
    case Call => if spot - strike > 0 then spot - strike else 0
    case Put => if strike - spot > 0 then strike - spot else 0
  }

  /**
   * Profit against the premium: paid by the buyer, received by the writer.
   * Either side breaks even exactly when the payoff equals the premium; the
   * buyer gains when the payoff exceeds it and the writer when it falls short.
   */
  function Profit(position: Position, payoff: int, premium: real): (r: real)
    ensures r == 0.0 <==> payoff as real == premium
    ensures position == Long ==> (r > 0.0 <==> payoff as real > premium)
    ensures position == Short ==> (r > 0.0 <==> payoff as real < premium)
    ensures r == payoff as real - premium || r == premium - payoff as real
  {
    if position == Long then payoff as real - premium else premium - payoff as real
  }

  /** How many points the sweep produces: every second dollar from `MinSpot` up to `MaxSpot`. */
  function PointCount(strike: int): nat {
    if MinSpot(strike) <= MaxSpot(strike) then (MaxSpot(strike) - MinSpot(strike)) / STEP + 1 else 0
  }

  /**
   * The `useMemo` body: one record per swept spot price, in increasing
   * order, carrying that spot's payoff and profit.
   */
  method ChartData(kind: OptionKind, position: Position, strike: int, premium: real) returns (data: seq<PayoffData>)
    ensures |data| == PointCount(strike)
    ensures strike >= HALF_RANGE ==> |data| == 51
    ensures |data| > 0 ==> data[0].spotPrice == MinSpot(strike)
    ensures |data| > 0 ==> data[|data| - 1].spotPrice <= MaxSpot(strike) < data[|data| - 1].spotPrice + STEP
    ensures forall i :: 0 <= i < |data| ==> MinSpot(strike) <= data[i].spotPrice <= MaxSpot(strike)
    ensures forall i :: 0 <= i < |data| - 1 ==> data[i + 1].spotPrice == data[i].spotPrice + STEP
    ensures forall i :: 0 <= i < |data| ==>
      && data[i].payoff == Payoff(kind, strike, data[i].spotPrice)
      && data[i].profit == Profit(position, data[i].payoff, premium)
  {
    var minPrice := MinSpot(strike);
    var maxPrice := MaxSpot(strike);
    data := [];
    var i := minPrice;
    while i <= maxPrice
      invariant i == minPrice + STEP * |data|
      invariant |data| > 0 ==> i <= maxPrice + STEP
      invariant forall j :: 0 <= j < |data| ==> data[j].spotPrice == minPrice + STEP * j
      invariant forall j :: 0 <= j < |data| ==> data[j].spotPrice <= maxPrice
      invariant forall j :: 0 <= j < |data| ==>
        && data[j].payoff == Payoff(kind, strike, data[j].spotPrice)
        && data[j].profit == Profit(position, data[j].payoff, premium)
      decreases maxPrice - i
    {
      var payoff := Payoff(kind, strike, i);
      var profit := Profit(position, payoff, premium);
      data := data + [PayoffData(i, payoff, profit)];
      i := i + STEP;
    }
  }

  /** At every spot, call payoff minus put payoff is `spot - strike`. */
  lemma CallMinusPut(strike: int, spot: int)
    ensures Payoff(Call, strike, spot) - Payoff(Put, strike, spot) == spot - strike
  {
  }

  /** The long and the short profit at a point are exact negations. */
  lemma LongShortNegation(payoff: int, premium: real)
    ensures Profit(Long, payoff, premium) == -Profit(Short, payoff, premium)
  {
  }

  /** The buyer never loses more than the premium; the writer never gains more. */
  lemma ProfitBounds(kind: OptionKind, strike: int, spot: int, premium: real)
    ensures Profit(Long, Payoff(kind, strike, spot), premium) >= -premium
    ensures Profit(Short, Payoff(kind, strike, spot), premium) <= premium
  {
  }
}

=== FILE: server.dfy ===
/**
 * The request logic of the chat proxy (server/index.ts): the per-client
 * fixed-window rate limiter, the ordered input validator, the message
 * sanitizer and the history cut applied before the conversation is
 * forwarded, and the post-processing of the model's reply. The clock
 * (`Date.now()`) and the client address are parameters.
 */
module Server {

  import opened Wrappers
  import opened Types
  import opened Js
  import opened Text
  import opened Validation

  // ------------------------------------------------------- rate limiting

  const RATE_LIMIT_WINDOW: int := 60000
  const MAX_REQUESTS_PER_WINDOW: int := 10

  /** A client's entry in the rate-limit store. */
  datatype ClientWindow = ClientWindow(count: int, resetTime: int)

  type Store = map<string, ClientWindow>

  /** Whether the request goes on to the next handler or is answered with 429. */
  datatype Verdict = Admit | TooManyRequests(retryAfter: int)

  datatype RateStep = RateStep(store: Store, verdict: Verdict)

  /** `req.ip || 'unknown'`: a missing or empty address shares the key `unknown`. */
  function ClientId(ip: Option<string>): (id: string)
    ensures ip.Some? && ip.value != "" ==> id == ip.value
    ensures ip.None? || ip.value == "" ==> id == "unknown"
    ensures id != ""
  {
    match ip
    case Some(a) => if a != "" then a else "unknown"
    case None => "unknown"
  }

  /**
   * Requests without an address all share one key, and two requests with
   * addresses share a key exactly when their addresses are equal.
   */
  lemma ClientIdSeparatesAddresses(a: string, b: string)
    requires a != "" && b != ""
    ensures ClientId(None) == ClientId(Some(""))
    ensures ClientId(Some(a)) == ClientId(Some(b)) <==> a == b
  {
  }

  /**
   * `rateLimit` as a transition of the store at time `now`: a client with
   * no entry, or whose window ended strictly before `now`, opens a fresh
   * window; a client that already used its 10 requests is refused until
   * the window ends; anyone else uses one more request.
   */
  function RateLimit(store: Store, client: string, now: int): (step: RateStep)
    ensures client in step.store
    ensures forall c :: c != client ==> (c in step.store <==> c in store)
    ensures forall c :: c != client && c in store ==> step.store[c] == store[c]
    ensures step.verdict.Admit? <==>
      client !in store || now > store[client].resetTime || store[client].count < MAX_REQUESTS_PER_WINDOW
    ensures client !in store || now > store[client].resetTime ==>
      step.store[client] == ClientWindow(1, now + RATE_LIMIT_WINDOW)
    ensures client in store && now <= store[client].resetTime && store[client].count < MAX_REQUESTS_PER_WINDOW ==>
      step.store[client] == ClientWindow(store[client].count + 1, store[client].resetTime)
    ensures step.verdict.TooManyRequests? ==>
      && step.store == store
      && step.verdict.retryAfter >= 0
      && 1000 * (step.verdict.retryAfter - 1) < store[client].resetTime - now <= 1000 * step.verdict.retryAfter
  {
    if client !in store || now > store[client].resetTime then
      RateStep(store[client := ClientWindow(1, now + RATE_LIMIT_WINDOW)], Admit)
    else
      var data := store[client];
      if data.count >= MAX_REQUESTS_PER_WINDOW then
        RateStep(store, TooManyRequests(CeilSeconds(data.resetTime - now)))
      else
        RateStep(store[client := data.(count := data.count + 1)], Admit)
  }

  /** Every stored count lies between 1 and the per-window maximum. */
  predicate CountsInRange(store: Store) {
    forall c :: c in store ==> 1 <= store[c].count <= MAX_REQUESTS_PER_WINDOW
  }

  lemma RateLimitKeepsCountsInRange(store: Store, client: string, now: int)
    requires CountsInRange(store)
    ensures CountsInRange(RateLimit(store, client, now).store)
  {
  }

  /** How many of the requests of `client` at the given times are admitted, one after another. */
  function Admitted(store: Store, client: string, times: seq<int>): nat
    decreases |times|
  {
    if |times| == 0 then 0
    else
      var step := RateLimit(store, client, times[0]);
      (if step.verdict.Admit? then 1 else 0) + Admitted(step.store, client, times[1..])
  }

  /**
   * While a window is open, a client with `count` requests used gets at
   * most `10 - count` more through.
   */
  lemma {:induction false} WindowBudget(store: Store, client: string, times: seq<int>)
    requires client in store && store[client].count <= MAX_REQUESTS_PER_WINDOW
    requires forall i :: 0 <= i < |times| ==> times[i] <= store[client].resetTime
    ensures Admitted(store, client, times) <= MAX_REQUESTS_PER_WINDOW - store[client].count
    decreases |times|
  {
    if |times| > 0 {
      var step := RateLimit(store, client, times[0]);
      assert step.store[client].resetTime == store[client].resetTime;
      WindowBudget(step.store, client, times[1..]);
    }
  }

  /**
   * A request that opens a fresh window at `now` is followed by at most
   * nine more admitted ones until the window ends: at most 10 per window.
   */
  lemma FreshWindowBudget(store: Store, client: string, now: int, times: seq<int>)
    requires client !in store || now > store[client].resetTime
    requires forall i :: 0 <= i < |times| ==> times[i] <= now + RATE_LIMIT_WINDOW
    ensures Admitted(store, client, [now] + times) <= MAX_REQUESTS_PER_WINDOW
  {
    var step := RateLimit(store, client, now);
    assert ([now] + times)[1..] == times;
    WindowBudget(step.store, client, times);
  }

  // ------------------------------------------------------ input checking

  const MAX_HISTORY: int := 50

  /** The 400 answers of `validateChatInput`, and the TypeError a nullish element raises. */
  datatype ChatInputError =
    | NotAnArray
    | EmptyConversation
    | TooManyMessages
    | MissingRoleOrContent
    | InvalidRole
    | ContentNotString
    | ContentTooLong
    | NullishMessage

  /** The HTTP status: 400, except the TypeError that the error handler turns into 500. */
  function Status(e: ChatInputError): (code: int)
    ensures code == 400 || code == 500
    ensures code == 500 <==> e == NullishMessage
  {
    if e == NullishMessage then 500 else 400
  }

  /** The `error` text of the JSON body sent with the status. */
  function ErrorText(e: ChatInputError): (text: string)
    ensures text != ""
  {
    match e
    case NotAnArray => "Messages must be an array"
    case EmptyConversation => "Messages array cannot be empty"
    case TooManyMessages => "Too many messages in conversation history"
    case MissingRoleOrContent => "Each message must have role and content"
    case InvalidRole => "Invalid message role"
    case ContentNotString => "Message content must be a string"
    case ContentTooLong => "Message content too long (max 5000 characters)"
    case NullishMessage => "Internal server error"
  }

  /** Each error has its own text, so a client can tell them apart. */
  lemma ErrorTextsDistinct(e: ChatInputError, f: ChatInputError)
    ensures ErrorText(e) == ErrorText(f) <==> e == f
  {
    ErrorTextLength(e);
    ErrorTextLength(f);
  }

  /** The texts have eight different lengths. */
  lemma ErrorTextLength(e: ChatInputError)
    ensures |ErrorText(e)| == ErrorTextLengthOf(e)
  {
  }

  function ErrorTextLengthOf(e: ChatInputError): nat {
    match e
    case NotAnArray => 25
    case EmptyConversation => 30
    case TooManyMessages => 41
    case MissingRoleOrContent => 39
    case InvalidRole => 20
    case ContentNotString => 32
    case ContentTooLong => 46
    case NullishMessage => 21
  }

  /**
   * The per-message checks in source order: role and content present
   * (truthy), role `user` or `assistant`, content a string, content at
   * most 5000 characters. Reading a property of `null`/`undefined` throws.
   */
  function CheckMessage(msg: JsValue): (r: Option<ChatInputError>)
    ensures r.None? <==> IsValidMessage(msg)
    ensures r == Some(NullishMessage) <==> IsNullish(msg)
    ensures r.Some? ==> r.value !in {NotAnArray, EmptyConversation, TooManyMessages}
    ensures r == Some(MissingRoleOrContent) <==>
      !IsNullish(msg) && (!Truthy(Get(msg, "role")) || !Truthy(Get(msg, "content")))
    ensures r == Some(InvalidRole) <==>
      && !IsNullish(msg) && Truthy(Get(msg, "role")) && Truthy(Get(msg, "content"))
      && Get(msg, "role") !in {JsString("user"), JsString("assistant")}
    ensures r == Some(ContentNotString) <==>
      && !IsNullish(msg) && Get(msg, "role") in {JsString("user"), JsString("assistant")}
      && Truthy(Get(msg, "content")) && !Get(msg, "content").JsString?
    ensures r == Some(ContentTooLong) <==>
      && !IsNullish(msg) && Get(msg, "role") in {JsString("user"), JsString("assistant")}
      && Get(msg, "content").JsString? && |Get(msg, "content").s| > MAX_MESSAGE_LENGTH
  {
    if IsNullish(msg) then Some(NullishMessage)
    else
      var role := Get(msg, "role");
      var content := Get(msg, "content");
      if !Truthy(role) || !Truthy(content) then Some(MissingRoleOrContent)
      else if !(role == JsString("user") || role == JsString("assistant")) then Some(InvalidRole)
      else if !content.JsString? then Some(ContentNotString)
      else if |content.s| > MAX_MESSAGE_LENGTH then Some(ContentTooLong)
      else None
  }

  /** The server's per-message checks accept exactly what the client's `isValidMessage` accepts. */
  lemma CheckMessageAgreesWithClient(msg: JsValue)
    ensures CheckMessage(msg).None? <==> IsValidMessage(msg)
  {
  }

  /** A message that passed the checks, as a typed record. */
  function AsChatMessage(msg: JsValue): (cm: ChatMessage)
    requires CheckMessage(msg).None?
    ensures cm.content == msg.fields["content"].s
    ensures cm.role == User <==> msg.fields["role"] == JsString("user")
  {
    CheckMessageAgreesWithClient(msg);
    var role := if msg.fields["role"] == JsString("user") then User else Assistant;
    ChatMessage(role, msg.fields["content"].s)
  }

  /** Every element of `items` before index `n` passes the per-message checks. */
  predicate AllPass(items: seq<JsValue>, n: int)
    requires 0 <= n <= |items|
  {
    forall j :: 0 <= j < n ==> CheckMessage(items[j]).None?
  }

  /** The typed conversation of a request whose every element passed the checks. */
  function TypedMessages(items: seq<JsValue>): (r: seq<ChatMessage>)
    requires AllPass(items, |items|)
    ensures |r| == |items|
    ensures forall i :: 0 <= i < |items| ==> r[i] == AsChatMessage(items[i])
  {
    seq(|items|, i requires 0 <= i < |items| => AsChatMessage(items[i]))
  }

  /**
   * `validateChatInput`: the array checks, then the per-message checks
   * element by element; the first failing check names the error. On
   * success the typed conversation is returned.
   */
  method ValidateChatInput(messages: JsValue) returns (res: Result<seq<ChatMessage>, ChatInputError>)
    ensures !messages.JsArray? ==> res == Failure(NotAnArray)
    ensures messages.JsArray? && |messages.items| == 0 ==> res == Failure(EmptyConversation)
    ensures messages.JsArray? && |messages.items| > MAX_HISTORY ==> res == Failure(TooManyMessages)
    ensures res.Success? <==>
      messages.JsArray? && 1 <= |messages.items| <= MAX_HISTORY && AllPass(messages.items, |messages.items|)
    ensures res.Failure? && messages.JsArray? && 1 <= |messages.items| <= MAX_HISTORY ==>
      exists i :: 0 <= i < |messages.items| && AllPass(messages.items, i)
        && CheckMessage(messages.items[i]) == Some(res.error)
    ensures res.Success? ==>
      |res.value| == |messages.items|
      && forall i :: 0 <= i < |res.value| ==> res.value[i] == AsChatMessage(messages.items[i])
    ensures res.Success? ==>
      messages.JsArray? && AllPass(messages.items, |messages.items|)
      && res.value == TypedMessages(messages.items)
  {
    if !messages.JsArray? {
      return Failure(NotAnArray);
    }
    var items := messages.items;
    if |items| == 0 {
      return Failure(EmptyConversation);
    }
    if |items| > MAX_HISTORY {
      return Failure(TooManyMessages);
    }
    var typed: seq<ChatMessage> := [];
    var i := 0;
    while i < |items|
      invariant 0 <= i <= |items|
      invariant AllPass(items, i)
      invariant |typed| == i
      invariant forall j :: 0 <= j < i ==> typed[j] == AsChatMessage(items[j])
    {
      var check := CheckMessage(items[i]);
      if check.Some? {
        return Failure(check.value);
      }
      typed := typed + [AsChatMessage(items[i])];
      i := i + 1;
    }
    return Success(typed);
  }

  // --------------------------------------------- sanitizing and forwarding

  /** `sanitizeMessage`: trim, cut to 5000 characters, delete the markers. */
  function SanitizeMessage(content: string): (r: string)
    ensures |r| <= MAX_MESSAGE_LENGTH
  {
    StripMarkers(TrimAndTruncate(content))
  }

  lemma SanitizeMessageIsSubsequence(content: string)
    ensures IsSubsequence(SanitizeMessage(content), TrimAndTruncate(content))
  {
    StripMarkersIsSubsequence(TrimAndTruncate(content));
  }

  /**
   * The client's sanitizer does everything the server's does and then
   * deletes script and iframe blocks, so its output is a subsequence of
   * the server's.
   */
  lemma ClientSanitizerRefinesServer(s: string)
    ensures IsSubsequence(SanitizeInput(JsString(s)), SanitizeMessage(s))
  {
    var a := SanitizeMessage(s);
    var b := RemoveBlocks(a, SCRIPT_OPEN, SCRIPT_CLOSE);
    RemoveBlocksIsSubsequence(a, SCRIPT_OPEN, SCRIPT_CLOSE);
    RemoveBlocksIsSubsequence(b, IFRAME_OPEN, IFRAME_CLOSE);
    SubsequenceTransitive(SanitizeInput(JsString(s)), b, a);
  }

  const FORWARDED_HISTORY: int := 20

  /**
   * What the handler forwards: the last (at most) 20 messages, in order,
   * roles kept, contents sanitized. The handler sanitizes every message
   * and then takes `slice(-20)`; `ForwardedIsMapThenSlice` shows that
   * cutting first and sanitizing the kept messages gives the same list.
   */
  function ForwardedMessages(msgs: seq<ChatMessage>): (r: seq<ChatMessage>)
    ensures |r| == Min(|msgs|, FORWARDED_HISTORY)
    ensures var k := |msgs| - |r|;
      forall i :: 0 <= i < |r| ==> r[i] == ChatMessage(msgs[k + i].role, SanitizeMessage(msgs[k + i].content))
  {
    MapContentsOfLast(msgs, c => SanitizeMessage(c), FORWARDED_HISTORY)
  }

  /** The handler's order, `messages.map(sanitize).slice(-20)`, yields exactly the forwarded list. */
  lemma ForwardedIsMapThenSlice(msgs: seq<ChatMessage>)
    ensures ForwardedMessages(msgs) == SliceFrom(SanitizeAll(msgs), -FORWARDED_HISTORY)
  {
    var r := ForwardedMessages(msgs);
    var all := SanitizeAll(msgs);
    var k := |msgs| - |r|;
    assert SliceFrom(all, -FORWARDED_HISTORY) == all[k..];
    forall i | 0 <= i < |r|
      ensures r[i] == all[k..][i]
    {
      assert all[k..][i] == all[k + i];
    }
  }

  /** Every message with `f` applied to its content; roles and order kept. */
  function MapContents(msgs: seq<ChatMessage>, f: string -> string): (r: seq<ChatMessage>)
    ensures |r| == |msgs|
    ensures forall i :: 0 <= i < |msgs| ==> r[i] == ChatMessage(msgs[i].role, f(msgs[i].content))
  {
    seq(|msgs|, i requires 0 <= i < |msgs| => ChatMessage(msgs[i].role, f(msgs[i].content)))
  }

  /** The last (at most) `n` messages, each with `f` applied to its content. */
  function MapContentsOfLast(msgs: seq<ChatMessage>, f: string -> string, n: nat): (r: seq<ChatMessage>)
    ensures |r| == Min(|msgs|, n)
    ensures var k := |msgs| - |r|;
      forall i :: 0 <= i < |r| ==> r[i] == ChatMessage(msgs[k + i].role, f(msgs[k + i].content))
  {
    var k := |msgs| - Min(|msgs|, n);
    MapContentsOfSuffixAt(msgs, f, k);
    MapContents(msgs[k..], f)
  }

  /** The `i`-th message of a mapped suffix is the mapped `k + i`-th message. */
  lemma MapContentsOfSuffixAt(msgs: seq<ChatMessage>, f: string -> string, k: nat)
    requires k <= |msgs|
    ensures forall i :: 0 <= i < |msgs| - k ==>
      MapContents(msgs[k..], f)[i] == ChatMessage(msgs[k + i].role, f(msgs[k + i].content))
  {
    forall i | 0 <= i < |msgs| - k
      ensures MapContents(msgs[k..], f)[i] == ChatMessage(msgs[k + i].role, f(msgs[k + i].content))
    {
      assert msgs[k..][i] == msgs[k + i];
    }
  }

  /** `messages.map(...)`: every message with its content sanitized and its role kept. */
  function SanitizeAll(msgs: seq<ChatMessage>): (r: seq<ChatMessage>)
    ensures |r| == |msgs|
    ensures forall i :: 0 <= i < |msgs| ==> r[i] == ChatMessage(msgs[i].role, SanitizeMessage(msgs[i].content))
  {
    MapContents(msgs, c => SanitizeMessage(c))
  }

  /**
   * The route after the rate limiter: validation, then sanitizing and the
   * history cut. What reaches the model is at most 20 messages of at most
   * 5000 characters each.
   */
  method ValidateAndForward(messages: JsValue) returns (res: Result<seq<ChatMessage>, ChatInputError>)
    ensures !messages.JsArray? ==> res == Failure(NotAnArray)
    ensures messages.JsArray? && |messages.items| == 0 ==> res == Failure(EmptyConversation)
    ensures messages.JsArray? && |messages.items| > MAX_HISTORY ==> res == Failure(TooManyMessages)
    ensures res.Success? <==>
      messages.JsArray? && 1 <= |messages.items| <= MAX_HISTORY && AllPass(messages.items, |messages.items|)
    ensures res.Failure? && messages.JsArray? && 1 <= |messages.items| <= MAX_HISTORY ==>
      exists i :: 0 <= i < |messages.items| && AllPass(messages.items, i)
        && CheckMessage(messages.items[i]) == Some(res.error)
    ensures res.Success? ==>
      messages.JsArray? && AllPass(messages.items, |messages.items|)
      && res.value == ForwardedMessages(TypedMessages(messages.items))
    ensures res.Success? ==> 1 <= |res.value| <= FORWARDED_HISTORY
    ensures res.Success? ==> forall i :: 0 <= i < |res.value| ==> |res.value[i].content| <= MAX_MESSAGE_LENGTH
  {
    var checked := ValidateChatInput(messages);
    match checked
    case Failure(e) => return Failure(e);
    case Success(msgs) =>
      res := Success(ForwardedMessages(msgs));
  }

  /** Two elements that are both the first to fail the per-message checks are the same element. */
  lemma FirstFailureUnique(items: seq<JsValue>, i: nat, j: nat)
    requires i < |items| && j < |items|
    requires AllPass(items, i) && CheckMessage(items[i]).Some?
    requires AllPass(items, j) && CheckMessage(items[j]).Some?
    ensures i == j
  {
  }

  /** How the chat route answers before the model is called. */
  datatype ChatResponse =
    | Throttled(retryAfter: int)
    | Rejected(error: ChatInputError)
    | Forwarded(messages: seq<ChatMessage>)

  /**
   * `POST /api/chat` up to the model call, for a client at address `ip`
   * at time `now`: the rate limiter runs first and answers 429 on its
   * own; an admitted request has used up a slot whether or not it then
   * passes validation. A rejection answers 500 exactly when the first
   * failing element is `null` or `undefined`, and 400 otherwise.
   */
  method HandleChat(store: Store, ip: Option<string>, now: int, messages: JsValue)
    returns (next: Store, resp: ChatResponse)
    ensures next == RateLimit(store, ClientId(ip), now).store
    ensures resp.Throttled? <==> RateLimit(store, ClientId(ip), now).verdict.TooManyRequests?
    ensures var verdict := RateLimit(store, ClientId(ip), now).verdict;
      verdict.TooManyRequests? ==> resp == Throttled(verdict.retryAfter)
    ensures resp.Rejected? ==> RateLimit(store, ClientId(ip), now).verdict.Admit?
    ensures RateLimit(store, ClientId(ip), now).verdict.Admit? ==>
      && (!messages.JsArray? ==> resp == Rejected(NotAnArray))
      && (messages.JsArray? && |messages.items| == 0 ==> resp == Rejected(EmptyConversation))
      && (messages.JsArray? && |messages.items| > MAX_HISTORY ==> resp == Rejected(TooManyMessages))
    ensures resp.Forwarded? <==>
      && RateLimit(store, ClientId(ip), now).verdict.Admit?
      && messages.JsArray? && 1 <= |messages.items| <= MAX_HISTORY && AllPass(messages.items, |messages.items|)
    ensures resp.Rejected? && messages.JsArray? && 1 <= |messages.items| <= MAX_HISTORY ==>
      exists i :: 0 <= i < |messages.items| && AllPass(messages.items, i)
        && CheckMessage(messages.items[i]) == Some(resp.error)
    ensures resp.Rejected? ==>
      (Status(resp.error) == 500 <==>
        && messages.JsArray? && 1 <= |messages.items| <= MAX_HISTORY
        && exists i :: 0 <= i < |messages.items| && AllPass(messages.items, i) && IsNullish(messages.items[i]))
    ensures resp.Forwarded? ==>
      messages.JsArray? && AllPass(messages.items, |messages.items|)
      && resp.messages == ForwardedMessages(TypedMessages(messages.items))
  {
    var step := RateLimit(store, ClientId(ip), now);
    next := step.store;
    if step.verdict.TooManyRequests? {
      resp := Throttled(step.verdict.retryAfter);
      return;
    }
    var checked := ValidateAndForward(messages);
    match checked
    case Success(msgs) =>
      resp := Forwarded(msgs);
    case Failure(e) =>
      resp := Rejected(e);
      if messages.JsArray? && 1 <= |messages.items| <= MAX_HISTORY {
        var items := messages.items;
        var i :| 0 <= i < |items| && AllPass(items, i) && CheckMessage(items[i]) == Some(e);
        forall j | 0 <= j < |items| && AllPass(items, j) && IsNullish(items[j])
          ensures j == i
        {
          FirstFailureUnique(items, i, j);
        }
      }
  }

  /** The reply sent when the model returns no text: "I'm having trouble processing that. Please try again." */
  const REPLY_FALLBACK: string := "I" + "'m having trouble processing that. Please try again" + "."
  const MAX_REPLY_LENGTH: nat := 10000

  /**
   * The reply sent back: the model's text, or the fallback when it is
   * missing or empty, cut to 10000 characters and then trimmed.
   */
  function ReplyText(text: Option<string>): (r: string)
    ensures |r| <= MAX_REPLY_LENGTH
    ensures text.None? || text.value == "" ==> r == REPLY_FALLBACK
    ensures text.Some? && text.value != "" ==> r == Trim(Take(text.value, MAX_REPLY_LENGTH))
  {
    var t := if text.Some? && text.value != "" then text.value else REPLY_FALLBACK;
    FallbackKeptWhole();
    Trim(Take(t, MAX_REPLY_LENGTH))
  }

  /** The fallback is short and has no surrounding whitespace, so cutting and trimming keep it whole. */
  lemma FallbackKeptWhole()
    ensures Trim(Take(REPLY_FALLBACK, MAX_REPLY_LENGTH)) == REPLY_FALLBACK
  {
    var t := REPLY_FALLBACK;
    assert t[0] == 'I' && t[|t| - 1] == '.';
    assert !IsJsWhitespace(t[0]) && !IsJsWhitespace(t[|t| - 1]);
    assert TrimStart(t) == t;
    assert TrimEnd(t) == t;
  }
}

=== FILE: text.dfy ===
/**
 * String operations used by both sanitizers: JavaScript's `trim`, global
 * case-insensitive deletion of a literal (`replace(/lit/gi, '')`), and the
 * deletion of `<tag ...>...</tag>` blocks that the script/iframe regexes
 * perform. Every one of them only deletes characters.
 */
module Text {

  import opened Wrappers

  /** JavaScript's WhiteSpace and LineTerminator code points, which `trim` strips. */
  predicate IsJsWhitespace(c: char) {
    || c == '\t' || c == '\n' || c == '\U{000B}' || c == '\U{000C}' || c == '\r'
    || c == ' ' || c == '\U{00A0}' || c == '\U{1680}'
    || ('\U{2000}' <= c <= '\U{200A}')
    || c == '\U{2028}' || c == '\U{2029}' || c == '\U{202F}' || c == '\U{205F}'
    || c == '\U{3000}' || c == '\U{FEFF}'
  }

  /** `[A-Za-z0-9_]`, the characters `\w` matches without the `u` flag. */
  predicate IsWordChar(c: char) {
    ('a' <= c <= 'z') || ('A' <= c <= 'Z') || ('0' <= c <= '9') || c == '_'
  }

  /**
   * The case folding of a non-unicode `/i` regex restricted to what can
   * reach ASCII: only `A`-`Z` change (non-ASCII letters never fold onto
   * ASCII ones in this mode).
   */
  function FoldCase(c: char): (f: char)
    ensures 'A' <= c <= 'Z' ==> f as int == c as int + 32
    ensures !('A' <= c <= 'Z') ==> f == c
    ensures !('A' <= f <= 'Z')
  {
    if 'A' <= c <= 'Z' then (c as int + 32) as char else c
  }

  /** `c` and `d` are the same ASCII letter, one upper case and one lower case. */
  predicate CasePair(c: char, d: char) {
    ('A' <= c <= 'Z' && d as int == c as int + 32) || ('A' <= d <= 'Z' && c as int == d as int + 32)
  }

  /** Two characters match under `/i` exactly when they are equal or the two cases of one ASCII letter. */
  lemma FoldCaseEquality(c: char, d: char)
    ensures FoldCase(c) == FoldCase(d) <==> c == d || CasePair(c, d)
  {
  }

  /** Folding twice is folding once. */
  lemma FoldCaseIdempotent(c: char)
    ensures FoldCase(FoldCase(c)) == FoldCase(c)
  {
  }

  /** `s` begins with `pat`, comparing letters case-insensitively. */
  predicate StartsWithIgnoringCase(s: string, pat: string) {
    |pat| <= |s| && forall j :: 0 <= j < |pat| ==> FoldCase(s[j]) == FoldCase(pat[j])
  }

  /** `a` can be obtained from `b` by deleting characters. */
  predicate IsSubsequence(a: string, b: string)
    decreases |b|
  {
    |a| == 0 || (|b| > 0 && ((a[0] == b[0] && IsSubsequence(a[1..], b[1..])) || IsSubsequence(a, b[1..])))
  }

  lemma {:induction false} SubsequenceTransitive(a: string, b: string, c: string)
    requires IsSubsequence(a, b) && IsSubsequence(b, c)
    ensures IsSubsequence(a, c)
    decreases |c|
  {
    if |a| > 0 {
      if IsSubsequence(b, c[1..]) {
        SubsequenceTransitive(a, b, c[1..]);
      } else if a[0] == b[0] && IsSubsequence(a[1..], b[1..]) {
        SubsequenceTransitive(a[1..], b[1..], c[1..]);
      } else {
        SubsequenceTransitive(a, b[1..], c[1..]);
      }
    }
  }

  /** A subsequence is never longer than the sequence it is taken from. */
  lemma {:induction false} SubsequenceLength(a: string, b: string)
    requires IsSubsequence(a, b)
    ensures |a| <= |b|
    decreases |b|
  {
    if |a| > 0 {
      if a[0] == b[0] && IsSubsequence(a[1..], b[1..]) {
        SubsequenceLength(a[1..], b[1..]);
      } else {
        SubsequenceLength(a, b[1..]);
      }
    }
  }

  lemma {:induction false} SubsequenceOfSuffix(a: string, b: string, k: nat)
    requires k <= |b| && IsSubsequence(a, b[k..])
    ensures IsSubsequence(a, b)
    decreases k
  {
    if k > 0 {
      assert b[k..] == b[1..][k - 1..];
      SubsequenceOfSuffix(a, b[1..], k - 1);
    }
  }

  lemma {:induction false} PrefixIsSubsequence(s: string, n: nat)
    requires n <= |s|
    ensures IsSubsequence(s[..n], s)
    decreases n
  {
    if n > 0 {
      assert s[..n][1..] == s[1..][..n - 1];
      PrefixIsSubsequence(s[1..], n - 1);
    }
  }

  lemma ConsSubsequence(c: char, a: string, b: string)
    requires IsSubsequence(a, b)
    ensures IsSubsequence([c] + a, [c] + b)
  {
    assert ([c] + a)[1..] == a;
    assert ([c] + b)[1..] == b;
  }

  // ---------------------------------------------------------------- trim

  /** `trimStart`: drops the leading whitespace and nothing else. */
  function TrimStart(s: string): (r: string)
    ensures |r| <= |s| && r == s[|s| - |r|..]
    ensures forall i :: 0 <= i < |s| - |r| ==> IsJsWhitespace(s[i])
    ensures |r| > 0 ==> !IsJsWhitespace(r[0])
    decreases |s|
  {
    if |s| > 0 && IsJsWhitespace(s[0]) then TrimStart(s[1..]) else s
  }

  /** `trimEnd`: drops the trailing whitespace and nothing else. */
  function TrimEnd(s: string): (r: string)
    ensures |r| <= |s| && r == s[..|r|]
    ensures forall i :: |r| <= i < |s| ==> IsJsWhitespace(s[i])
    ensures |r| > 0 ==> !IsJsWhitespace(r[|r| - 1])
    decreases |s|
  {
    if |s| > 0 && IsJsWhitespace(s[|s| - 1]) then TrimEnd(s[..|s| - 1]) else s
  }

  /**
   * `String.prototype.trim`: the longest infix of `s` that neither starts
   * nor ends with whitespace, cut out at the first non-whitespace character.
   */
  function Trim(s: string): (r: string)
    ensures var a := |s| - |TrimStart(s)|;
      && a + |r| <= |s|
      && r == s[a..][..|r|]
      && (forall i :: 0 <= i < a ==> IsJsWhitespace(s[i]))
      && (forall i :: a + |r| <= i < |s| ==> IsJsWhitespace(s[i]))
    ensures |r| > 0 ==> !IsJsWhitespace(r[0]) && !IsJsWhitespace(r[|r| - 1])
    ensures |r| == 0 <==> forall i :: 0 <= i < |s| ==> IsJsWhitespace(s[i])
  {
    TrimEnd(TrimStart(s))
  }

  lemma TrimIsSubsequence(s: string)
    ensures IsSubsequence(Trim(s), s)
  {
    var u := TrimStart(s);
    var r := Trim(s);
    PrefixIsSubsequence(u, |r|);
    SubsequenceOfSuffix(r, s, |s| - |u|);
  }

  // ------------------------------------------------- literal global delete

  /**
   * `s.replace(/pat/gi, '')` for a literal `pat`: scanning left to right,
   * every case-insensitive occurrence is deleted and the scan resumes after
   * it, so occurrences never overlap; every other character is kept.
   */
  function RemoveAll(s: string, pat: string): (r: string)
    requires |pat| > 0
    ensures |r| <= |s|
    decreases |s|
  {
    if |s| == 0 then []
    else if StartsWithIgnoringCase(s, pat) then RemoveAll(s[|pat|..], pat)
    else [s[0]] + RemoveAll(s[1..], pat)
  }

  /** How many occurrences of `pat` the left-to-right scan of `RemoveAll` deletes. */
  function Occurrences(s: string, pat: string): nat
    requires |pat| > 0
    decreases |s|
  {
    if |s| == 0 then 0
    else if StartsWithIgnoringCase(s, pat) then 1 + Occurrences(s[|pat|..], pat)
    else Occurrences(s[1..], pat)
  }

  /** The characters `RemoveAll` deletes come in whole occurrences of `pat`. */
  lemma {:induction false} RemoveAllDeletesWholeOccurrences(s: string, pat: string)
    requires |pat| > 0
    ensures |RemoveAll(s, pat)| + Occurrences(s, pat) * |pat| == |s|
    decreases |s|
  {
    if |s| > 0 {
      if StartsWithIgnoringCase(s, pat) {
        var rest := s[|pat|..];
        RemoveAllDeletesWholeOccurrences(rest, pat);
        var n := Occurrences(rest, pat);
        assert Occurrences(s, pat) == 1 + n;
        assert RemoveAll(s, pat) == RemoveAll(rest, pat);
        OneMoreTimes(n, |pat|);
      } else {
        RemoveAllDeletesWholeOccurrences(s[1..], pat);
      }
    }
  }

  lemma OneMoreTimes(n: int, p: int)
    ensures (1 + n) * p == p + n * p
  {
  }

  lemma {:induction false} RemoveAllIsSubsequence(s: string, pat: string)
    requires |pat| > 0
    ensures IsSubsequence(RemoveAll(s, pat), s)
    decreases |s|
  {
    if |s| > 0 {
      if StartsWithIgnoringCase(s, pat) {
        RemoveAllIsSubsequence(s[|pat|..], pat);
        SubsequenceOfSuffix(RemoveAll(s, pat), s, |pat|);
      } else {
        RemoveAllIsSubsequence(s[1..], pat);
        ConsSubsequence(s[0], RemoveAll(s[1..], pat), s[1..]);
        assert [s[0]] + s[1..] == s;
      }
    }
  }

  /** A string in which `pat` occurs nowhere (ignoring case) comes back unchanged. */
  lemma {:induction false} RemoveAllWithoutOccurrence(s: string, pat: string)
    requires |pat| > 0
    requires forall i :: 0 <= i < |s| ==> !StartsWithIgnoringCase(s[i..], pat)
    ensures RemoveAll(s, pat) == s
    decreases |s|
  {
    if |s| > 0 {
      assert s[0..] == s;
      forall i | 0 <= i < |s[1..]|
        ensures !StartsWithIgnoringCase(s[1..][i..], pat)
      {
        assert s[1..][i..] == s[i + 1..];
      }
      RemoveAllWithoutOccurrence(s[1..], pat);
    }
  }

  // ------------------------------------------------- <tag>...</tag> blocks

  /**
   * The global-replace loop of `String.prototype.replace` with an empty
   * replacement, written the way the ECMAScript algorithm runs it: from the
   * current position, find the next match, keep the text before it, and
   * resume right after it; with no match left, keep the rest.
   */
  function ReplaceScan(s: string, pat: string, from: nat): string
    requires |pat| > 0 && from <= |s|
    decreases |s| - from
  {
    match FindFrom(s, pat, from)
    case None => s[from..]
    case Some(j) => s[from..j] + ReplaceScan(s, pat, j + |pat|)
  }

  /** One round of the replace loop when no match is left. */
  lemma ReplaceScanNone(s: string, pat: string, from: nat)
    requires |pat| > 0 && from <= |s| && FindFrom(s, pat, from).None?
    ensures ReplaceScan(s, pat, from) == s[from..]
  {
  }

  /** One round of the replace loop when the next match is at `j`. */
  lemma ReplaceScanFound(s: string, pat: string, from: nat, j: nat)
    requires |pat| > 0 && from <= |s| && FindFrom(s, pat, from) == Some(j)
    ensures ReplaceScan(s, pat, from) == s[from..j] + ReplaceScan(s, pat, j + |pat|)
  {
  }

  lemma SliceCons(s: string, i: nat, j: nat)
    requires i < j <= |s|
    ensures s[i..j] == [s[i]] + s[i + 1..j]
  {
  }

  lemma ConsAssociates(c: char, a: string, b: string)
    ensures [c] + (a + b) == ([c] + a) + b
  {
  }

  /** Moving the start past a position where `pat` does not occur keeps that one character. */
  lemma ReplaceScanSkip(s: string, pat: string, from: nat)
    requires |pat| > 0 && from < |s|
    requires !StartsWithIgnoringCase(s[from..], pat)
    ensures ReplaceScan(s, pat, from) == [s[from]] + ReplaceScan(s, pat, from + 1)
  {
    var found := FindFrom(s, pat, from + 1);
    assert FindFrom(s, pat, from) == found;
    match found
    case None =>
      ReplaceScanNone(s, pat, from);
      ReplaceScanNone(s, pat, from + 1);
      SliceCons(s, from, |s|);
      assert s[from..|s|] == s[from..] && s[from + 1..|s|] == s[from + 1..];
    case Some(j) =>
      ReplaceScanFound(s, pat, from, j);
      ReplaceScanFound(s, pat, from + 1, j);
      SliceCons(s, from, j);
      ConsAssociates(s[from], s[from + 1..j], ReplaceScan(s, pat, j + |pat|));
  }

  /**
   * `RemoveAll` deletes exactly the matches the global-replace loop finds:
   * on the text from `from` on, it agrees with `ReplaceScan`.
   */
  lemma {:induction false} RemoveAllIsReplaceScan(s: string, pat: string, from: nat)
    requires |pat| > 0 && from <= |s|
    ensures RemoveAll(s[from..], pat) == ReplaceScan(s, pat, from)
    decreases |s| - from
  {
    var t := s[from..];
    if from == |s| {
      assert FindFrom(s, pat, from).None?;
      ReplaceScanNone(s, pat, from);
    } else if StartsWithIgnoringCase(t, pat) {
      assert FindFrom(s, pat, from) == Some(from);
      ReplaceScanFound(s, pat, from, from);
      assert s[from..from] == [];
      assert t[|pat|..] == s[from + |pat|..];
      RemoveAllIsReplaceScan(s, pat, from + |pat|);
    } else {
      assert t[1..] == s[from + 1..];
      RemoveAllIsReplaceScan(s, pat, from + 1);
      ReplaceScanSkip(s, pat, from);
    }
  }

  /** The whole-text form: `RemoveAll(s, pat)` is the global replace of `pat` by nothing. */
  lemma RemoveAllAgreesWithGlobalReplace(s: string, pat: string)
    requires |pat| > 0
    ensures RemoveAll(s, pat) == ReplaceScan(s, pat, 0)
  {
    assert s[0..] == s;
    RemoveAllIsReplaceScan(s, pat, 0);
  }

  /**
   * The least `j >= from` at which `close` occurs (ignoring case), if any.
   */
  function FindFrom(s: string, close: string, from: nat): (r: Option<nat>)
    requires from <= |s|
    ensures r.Some? ==> from <= r.value && r.value + |close| <= |s| && StartsWithIgnoringCase(s[r.value..], close)
    decreases |s| - from
  {
    if StartsWithIgnoringCase(s[from..], close) then Some(from)
    else if from == |s| then None
    else FindFrom(s, close, from + 1)
  }

  /** The occurrence `FindFrom` reports is the first one, and when it reports none there is none. */
  lemma {:induction false} FindFromIsFirst(s: string, close: string, from: nat)
    requires from <= |s|
    ensures FindFrom(s, close, from).Some? ==>
      forall j :: from <= j < FindFrom(s, close, from).value ==> !StartsWithIgnoringCase(s[j..], close)
    ensures FindFrom(s, close, from).None? ==>
      forall j :: from <= j <= |s| ==> !StartsWithIgnoringCase(s[j..], close)
    decreases |s| - from
  {
    var r := FindFrom(s, close, from);
    if !StartsWithIgnoringCase(s[from..], close) && from < |s| {
      FindFromIsFirst(s, close, from + 1);
      assert r == FindFrom(s, close, from + 1);
      var end := if r.Some? then r.value else |s| + 1;
      forall j | from <= j < end
        ensures !StartsWithIgnoringCase(s[j..], close)
      {
        if j > from {
          assert from + 1 <= j;
        }
      }
    }
  }

  /**
   * Where a match of `/<tag\b[^<]*(?:(?!<\/tag>)<[^<]*)*<\/tag>/i` that
   * starts at the beginning of `s` ends, for `open` = `<tag` and `close` =
   * `</tag>`. The match needs `open`, a word boundary right after it, and a
   * later `close`; the body can absorb every `<` except one that begins
   * `close`, so the only match ends with the first `close` after `open`.
   */
  function BlockEnd(s: string, open: string, close: string): (r: Option<nat>)
    requires |open| > 0
    ensures r.Some? ==> |open| + |close| <= r.value <= |s|
    ensures r.Some? ==> StartsWithIgnoringCase(s, open)
  {
    if StartsWithIgnoringCase(s, open) && (|s| == |open| || !IsWordChar(s[|open|])) then
      match FindFrom(s, close, |open|)
      case Some(j) => Some(j + |close|)
      case None => None
    else None
  }

  /**
   * `s.replace(/<tag\b...<\/tag>/gi, '')`: left to right, each block that
   * matches at the current position is deleted and the scan resumes after
   * it; at any other position one character is kept.
   */
  function RemoveBlocks(s: string, open: string, close: string): (r: string)
    requires |open| > 0
    ensures |r| <= |s|
    decreases |s|
  {
    if |s| == 0 then []
    else match BlockEnd(s, open, close)
      case Some(e) => RemoveBlocks(s[e..], open, close)
      case None => [s[0]] + RemoveBlocks(s[1..], open, close)
  }

  lemma {:induction false} RemoveBlocksIsSubsequence(s: string, open: string, close: string)
    requires |open| > 0
    ensures IsSubsequence(RemoveBlocks(s, open, close), s)
    decreases |s|
  {
    if |s| > 0 {
      match BlockEnd(s, open, close)
      case Some(e) =>
        RemoveBlocksIsSubsequence(s[e..], open, close);
        SubsequenceOfSuffix(RemoveBlocks(s, open, close), s, e);
      case None =>
        RemoveBlocksIsSubsequence(s[1..], open, close);
        ConsSubsequence(s[0], RemoveBlocks(s[1..], open, close), s[1..]);
        assert [s[0]] + s[1..] == s;
    }
  }

  /** Text in which `open` occurs nowhere comes back unchanged. */
  lemma {:induction false} RemoveBlocksWithoutOpening(s: string, open: string, close: string)
    requires |open| > 0
    requires forall i :: 0 <= i < |s| ==> !StartsWithIgnoringCase(s[i..], open)
    ensures RemoveBlocks(s, open, close) == s
    decreases |s|
  {
    if |s| > 0 {
      assert s[0..] == s;
      forall i | 0 <= i < |s[1..]|
        ensures !StartsWithIgnoringCase(s[1..][i..], open)
      {
        assert s[1..][i..] == s[i + 1..];
      }
      RemoveBlocksWithoutOpening(s[1..], open, close);
    }
  }
}

=== FILE: tutor.dfy ===
/**
 * The send/receive cycle of the chat widget (components/AITutor.tsx):
 * the guards `handleSend` applies before a message leaves, the state it
 * sets when one does, and the sanitized reply appended when the answer
 * arrives. The clock and the model's answer are parameters; the alerts
 * are outcomes.
 */
module Tutor {

  import opened Types
  import opened Js
  import opened Text
  import opened Validation

  /** The minimum time between two sent messages, in milliseconds. */
  const RATE_LIMIT_MS: int := 2000

  const GREETING: string :=
    "Hello! I'm your Quant Mentor. Stuck on a formula or a Greek? Ask me anything about derivatives!"

  /** What is shown when the sanitized reply is empty. */
  const FALLBACK: string := "I'm having trouble thinking. Volatility is high!"

  /** The component's state: the history, the input box, the busy flag and the last send time. */
  datatype TutorState = TutorState(
    messages: seq<ChatMessage>,
    input: string,
    isTyping: bool,
    lastRequestTime: int)

  /** The state at mount: the greeting alone, an empty box, not busy, last send at time 0. */
  const INITIAL: TutorState := TutorState([ChatMessage(Assistant, GREETING)], "", false, 0)

  /** How a press of Send ends: silently, with one of the three alerts, or with a request. */
  datatype SendOutcome =
    | Ignored
    | WaitRequired(seconds: int)
    | TooLong
    | InvalidContent
    | Sent(request: seq<ChatMessage>)

  datatype SendStep = SendStep(state: TutorState, outcome: SendOutcome)

  /**
   * `handleSend` up to the request, at time `now`: blank input or a pending
   * answer does nothing; a press less than 2 seconds after the last send
   * asks to wait the remaining seconds, rounded up; a raw input over 5000
   * characters is refused; input that sanitizes to nothing is refused.
   * Otherwise the sanitized message is appended, the box cleared, the
   * widget marked busy and `now` recorded; the history including the new
   * message is what is sent.
   */
  function Send(st: TutorState, now: int): (step: SendStep)
    ensures !step.outcome.Sent? ==> step.state == st
    ensures step.outcome.Sent? <==>
      && Trim(st.input) != ""
      && !st.isTyping
      && now - st.lastRequestTime >= RATE_LIMIT_MS
      && |st.input| <= MAX_MESSAGE_LENGTH
      && SanitizeInput(JsString(st.input)) != ""
    ensures step.outcome.Ignored? <==> Trim(st.input) == "" || st.isTyping
    ensures !step.outcome.Ignored? && now - st.lastRequestTime < RATE_LIMIT_MS ==> step.outcome.WaitRequired?
    ensures !step.outcome.Ignored? && now - st.lastRequestTime >= RATE_LIMIT_MS && |st.input| > MAX_MESSAGE_LENGTH ==>
      step.outcome == TooLong
    ensures step.outcome.InvalidContent? <==>
      && !step.outcome.Ignored?
      && now - st.lastRequestTime >= RATE_LIMIT_MS
      && |st.input| <= MAX_MESSAGE_LENGTH
      && SanitizeInput(JsString(st.input)) == ""
    ensures step.outcome.WaitRequired? ==>
      && now - st.lastRequestTime < RATE_LIMIT_MS
      && 1000 * (step.outcome.seconds - 1) < RATE_LIMIT_MS - (now - st.lastRequestTime) <= 1000 * step.outcome.seconds
    ensures step.outcome.Sent? ==>
      && step.state.messages == st.messages + [ChatMessage(User, SanitizeInput(JsString(st.input)))]
      && step.state.input == ""
      && step.state.isTyping
      && step.state.lastRequestTime == now
      && step.outcome.request == step.state.messages
  {
    if Trim(st.input) == "" || st.isTyping then SendStep(st, Ignored)
    else if now - st.lastRequestTime < RATE_LIMIT_MS then
      SendStep(st, WaitRequired(CeilSeconds(RATE_LIMIT_MS - (now - st.lastRequestTime))))
    else if |st.input| > MAX_MESSAGE_LENGTH then SendStep(st, TooLong)
    else
      var sanitized := SanitizeInput(JsString(st.input));
      if sanitized == "" then SendStep(st, InvalidContent)
      else
        var history := st.messages + [ChatMessage(User, sanitized)];
        SendStep(TutorState(history, "", true, now), Sent(history))
  }

  /**
   * The end of `handleSend`: the answer, sanitized (anything but a string
   * sanitizes to nothing), or the fallback, appended as the assistant's
   * message; the widget is no longer busy.
   */
  function Receive(st: TutorState, reply: JsValue): (st': TutorState)
    ensures |st'.messages| == |st.messages| + 1
    ensures forall i :: 0 <= i < |st.messages| ==> st'.messages[i] == st.messages[i]
    ensures st'.messages[|st.messages|].role == Assistant
    ensures 0 < |st'.messages[|st.messages|].content| <= MAX_MESSAGE_LENGTH
    ensures SanitizeInput(reply) != "" ==> st'.messages[|st.messages|].content == SanitizeInput(reply)
    ensures SanitizeInput(reply) == "" ==> st'.messages[|st.messages|].content == FALLBACK
    ensures !st'.isTyping && st'.input == st.input && st'.lastRequestTime == st.lastRequestTime
  {
    var sanitized := SanitizeInput(reply);
    var content := if sanitized != "" then sanitized else FALLBACK;
    assert 0 < |content| <= MAX_MESSAGE_LENGTH;
    var messages := st.messages + [ChatMessage(Assistant, content)];
    TutorState(messages, st.input, false, st.lastRequestTime)
  }

  /** With a clock that does not run backwards, the wait asked for is 1 or 2 seconds. */
  lemma WaitIsOneOrTwoSeconds(st: TutorState, now: int)
    requires st.lastRequestTime <= now
    ensures Send(st, now).outcome.WaitRequired? ==> Send(st, now).outcome.seconds in {1, 2}
  {
  }

  /** The length alert is only reached once the rate check has passed. */
  lemma TooLongOnlyAfterRateCheck(st: TutorState, now: int)
    ensures Send(st, now).outcome.TooLong? ==>
      now - st.lastRequestTime >= RATE_LIMIT_MS && |st.input| > MAX_MESSAGE_LENGTH
  {
  }

  /** While an answer is pending, every further press is ignored. */
  lemma NoSecondRequestWhilePending(st: TutorState, now: int, later: int)
    ensures Send(st, now).outcome.Sent? ==> Send(Send(st, now).state, later).outcome == Ignored
  {
  }

  /** What happens to the widget: a press of Send, or the arrival of an answer. */
  datatype Event = Press(now: int) | Answer(reply: JsValue)

  /** One event; an answer only lands while one is pending. */
  function Step(st: TutorState, e: Event): TutorState {
    match e
    case Press(now) => Send(st, now).state
    case Answer(reply) => if st.isTyping then Receive(st, reply) else st
  }

  /** The state after a run of events. */
  function Run(st: TutorState, events: seq<Event>): TutorState
    decreases |events|
  {
    if |events| == 0 then st else Run(Step(st, events[0]), events[1..])
  }

  /** The times at which a run of events sends a request, in order. */
  function SendTimes(st: TutorState, events: seq<Event>): seq<int>
    decreases |events|
  {
    if |events| == 0 then []
    else
      var first := match events[0]
        case Press(now) => if Send(st, now).outcome.Sent? then [now] else []
        case Answer(_) => [];
      first + SendTimes(Step(st, events[0]), events[1..])
  }

  /**
   * Requests leave at least 2 seconds apart, and the first at least 2
   * seconds after the last one recorded in the starting state.
   */
  lemma {:induction false} SendsAreSpaced(st: TutorState, events: seq<Event>)
    ensures var ts := SendTimes(st, events);
      && (|ts| > 0 ==> st.lastRequestTime + RATE_LIMIT_MS <= ts[0])
      && forall i :: 0 <= i < |ts| - 1 ==> ts[i] + RATE_LIMIT_MS <= ts[i + 1]
    decreases |events|
  {
    if |events| > 0 {
      var st' := Step(st, events[0]);
      SendsAreSpaced(st', events[1..]);
      var rest := SendTimes(st', events[1..]);
      match events[0]
      case Press(now) =>
        if Send(st, now).outcome.Sent? {
          assert SendTimes(st, events) == [now] + rest;
        } else {
          assert SendTimes(st, events) == rest;
        }
      case Answer(_) =>
        assert SendTimes(st, events) == rest;
    }
  }

  /** Every message in the history is non-empty and within the message limit. */
  predicate HistoryBounded(st: TutorState) {
    forall i :: 0 <= i < |st.messages| ==> 0 < |st.messages[i].content| <= MAX_MESSAGE_LENGTH
  }

  lemma InitialHistoryBounded()
    ensures HistoryBounded(INITIAL)
  {
  }

  lemma StepKeepsHistoryBounded(st: TutorState, e: Event)
    requires HistoryBounded(st)
    ensures HistoryBounded(Step(st, e))
  {
  }

  /** From the initial state, the history stays bounded along any run. */
  lemma {:induction false} RunKeepsHistoryBounded(st: TutorState, events: seq<Event>)
    requires HistoryBounded(st)
    ensures HistoryBounded(Run(st, events))
    decreases |events|
  {
    if |events| > 0 {
      StepKeepsHistoryBounded(st, events[0]);
      RunKeepsHistoryBounded(Step(st, events[0]), events[1..]);
    }
  }
}

=== FILE: types.dfy ===
/**
 * The plain records and string-literal unions shared by the pricing engine,
 * the charts and the chat tutor (types.ts and the inline `'call' | 'put'`,
 * `'long' | 'short'` unions of the components).
 */
module Types {

  /** `'call' | 'put'`. */
  datatype OptionKind = Call | Put

  /** `'long' | 'short'`: whether the option is bought or written. */
  datatype Position = Long | Short

  /** `'user' | 'assistant'`. */
  datatype Role = User | Assistant

  /** One turn of the tutor conversation (`ChatMessage`). */
  datatype ChatMessage = ChatMessage(role: Role, content: string)

  /**
   * One point of the expiry diagram (`PayoffData`). Spot prices and strikes
   * are whole dollars (the strike slider has step 1); the premium slider has
   * step 0.5, so profit is a real.
   */
  datatype PayoffData = PayoffData(spotPrice: int, payoff: int, profit: real)
}

=== FILE: validation.dfy ===
/**
 * The client-side input utilities of utils/validation.ts: the sanitizer
 * applied to chat input and AI replies, the message-shape validator, and
 * the conversation-history limit.
 */
module Validation {

  import opened Types
  import opened Js
  import opened Text

  const MAX_MESSAGE_LENGTH: nat := 5000
  const MAX_CONVERSATION_LENGTH: int := 20

  /** The prompt-injection markers, deleted in this order. */
  const MARKERS: seq<string> := ["[INST]", "[/INST]", "<<SYS>>", "</SYS>>"]

  const SCRIPT_OPEN: string := "<script"
  const SCRIPT_CLOSE: string := "</script>"
  const IFRAME_OPEN: string := "<iframe"
  const IFRAME_CLOSE: string := "</iframe>"

  /**
   * The four marker deletions, each a global case-insensitive deletion of
   * its literal. A deletion can join the text around it into a new marker,
   * so markers may still occur afterwards.
   */
  function StripMarkers(s: string): (r: string)
    ensures |r| <= |s|
  {
    RemoveAll(RemoveAll(RemoveAll(RemoveAll(s, MARKERS[0]), MARKERS[1]), MARKERS[2]), MARKERS[3])
  }

  lemma StripMarkersIsSubsequence(s: string)
    ensures IsSubsequence(StripMarkers(s), s)
  {
    var s1 := RemoveAll(s, MARKERS[0]);
    var s2 := RemoveAll(s1, MARKERS[1]);
    var s3 := RemoveAll(s2, MARKERS[2]);
    RemoveAllIsSubsequence(s, MARKERS[0]);
    RemoveAllIsSubsequence(s1, MARKERS[1]);
    RemoveAllIsSubsequence(s2, MARKERS[2]);
    RemoveAllIsSubsequence(s3, MARKERS[3]);
    SubsequenceTransitive(s2, s1, s);
    SubsequenceTransitive(s3, s2, s);
    SubsequenceTransitive(StripMarkers(s), s3, s);
  }

  /** Trimming and truncating to the message limit, the first two steps of both sanitizers. */
  function TrimAndTruncate(s: string): (r: string)
    ensures |r| == Min(|Trim(s)|, MAX_MESSAGE_LENGTH)
    ensures |r| <= MAX_MESSAGE_LENGTH && |r| <= |Trim(s)|
    ensures r == Trim(s)[..|r|]
  {
    Take(Trim(s), MAX_MESSAGE_LENGTH)
  }

  /**
   * `sanitizeInput`: anything but a string becomes `""`; a string is
   * trimmed, cut to 5000 characters, stripped of the markers and then of
   * `<script ...>...</script>` and `<iframe ...>...</iframe>` blocks.
   */
  function SanitizeInput(input: JsValue): (r: string)
    ensures !input.JsString? ==> r == ""
    ensures |r| <= MAX_MESSAGE_LENGTH
    ensures input.JsString? ==> |r| <= |Trim(input.s)|
  {
    match input
    case JsString(s) =>
      RemoveBlocks(RemoveBlocks(StripMarkers(TrimAndTruncate(s)), SCRIPT_OPEN, SCRIPT_CLOSE), IFRAME_OPEN, IFRAME_CLOSE)
    case _ => ""
  }

  /** The sanitized text keeps the remaining characters of the trimmed, truncated input in order. */
  lemma SanitizeInputIsSubsequence(s: string)
    ensures IsSubsequence(SanitizeInput(JsString(s)), TrimAndTruncate(s))
  {
    var u := TrimAndTruncate(s);
    var a := StripMarkers(u);
    var b := RemoveBlocks(a, SCRIPT_OPEN, SCRIPT_CLOSE);
    StripMarkersIsSubsequence(u);
    RemoveBlocksIsSubsequence(a, SCRIPT_OPEN, SCRIPT_CLOSE);
    RemoveBlocksIsSubsequence(b, IFRAME_OPEN, IFRAME_CLOSE);
    SubsequenceTransitive(b, a, u);
    SubsequenceTransitive(SanitizeInput(JsString(s)), b, u);
  }

  /** A literal that begins with a non-letter cannot occur where that character is absent. */
  lemma NoOccurrenceWithoutFirst(s: string, pat: string)
    requires |pat| > 0 && !('a' <= pat[0] <= 'z') && !('A' <= pat[0] <= 'Z')
    requires forall i :: 0 <= i < |s| ==> s[i] != pat[0]
    ensures forall i :: 0 <= i < |s| ==> !StartsWithIgnoringCase(s[i..], pat)
  {
    forall i | 0 <= i < |s|
      ensures !StartsWithIgnoringCase(s[i..], pat)
    {
      assert s[i..][0] == s[i];
    }
  }

  /** Text without `[` or `<` has no marker to delete. */
  lemma StripMarkersPlainText(u: string)
    requires forall i :: 0 <= i < |u| ==> u[i] != '[' && u[i] != '<'
    ensures StripMarkers(u) == u
  {
    assert MARKERS[0][0] == '[' && MARKERS[1][0] == '[';
    assert MARKERS[2][0] == '<' && MARKERS[3][0] == '<';
    NoOccurrenceWithoutFirst(u, MARKERS[0]);
    RemoveAllWithoutOccurrence(u, MARKERS[0]);
    NoOccurrenceWithoutFirst(u, MARKERS[1]);
    RemoveAllWithoutOccurrence(u, MARKERS[1]);
    NoOccurrenceWithoutFirst(u, MARKERS[2]);
    RemoveAllWithoutOccurrence(u, MARKERS[2]);
    NoOccurrenceWithoutFirst(u, MARKERS[3]);
    RemoveAllWithoutOccurrence(u, MARKERS[3]);
  }

  /** Text without `<` has no script or iframe block to delete. */
  lemma RemoveTagBlocksPlainText(u: string)
    requires forall i :: 0 <= i < |u| ==> u[i] != '<'
    ensures RemoveBlocks(RemoveBlocks(u, SCRIPT_OPEN, SCRIPT_CLOSE), IFRAME_OPEN, IFRAME_CLOSE) == u
  {
    assert SCRIPT_OPEN[0] == '<' && IFRAME_OPEN[0] == '<';
    NoOccurrenceWithoutFirst(u, SCRIPT_OPEN);
    RemoveBlocksWithoutOpening(u, SCRIPT_OPEN, SCRIPT_CLOSE);
    NoOccurrenceWithoutFirst(u, IFRAME_OPEN);
    RemoveBlocksWithoutOpening(u, IFRAME_OPEN, IFRAME_CLOSE);
  }

  /** Every character of the trimmed, truncated text is a character of the input. */
  lemma TrimAndTruncateChars(s: string)
    ensures forall i :: 0 <= i < |TrimAndTruncate(s)| ==>
      exists j :: 0 <= j < |s| && TrimAndTruncate(s)[i] == s[j]
  {
    var u := TrimAndTruncate(s);
    var a := |s| - |TrimStart(s)|;
    forall i | 0 <= i < |u|
      ensures exists j :: 0 <= j < |s| && u[i] == s[j]
    {
      assert u[i] == Trim(s)[i] == s[a + i];
    }
  }

  /**
   * Plain text, in which neither `[` nor `<` occurs, is only trimmed and
   * truncated: none of the deletions touches it.
   */
  lemma SanitizeInputPlainText(s: string)
    requires forall i :: 0 <= i < |s| ==> s[i] != '[' && s[i] != '<'
    ensures SanitizeInput(JsString(s)) == TrimAndTruncate(s)
  {
    var u := TrimAndTruncate(s);
    TrimAndTruncateChars(s);
    StripMarkersPlainText(u);
    RemoveTagBlocksPlainText(u);
  }

  /**
   * `isValidMessage`: a non-null object whose `role` is the string `user`
   * or `assistant` and whose `content` is a string of 1 to 5000 characters.
   */
  function IsValidMessage(message: JsValue): (b: bool)
    ensures b <==>
      && message.JsObject?
      && "role" in message.fields
      && (message.fields["role"] == JsString("user") || message.fields["role"] == JsString("assistant"))
      && "content" in message.fields
      && message.fields["content"].JsString?
      && 1 <= |message.fields["content"].s| <= MAX_MESSAGE_LENGTH
  {
    if !IsObject(message) then false
    else
      var role := Get(message, "role");
      var content := Get(message, "content");
      && (role == JsString("user") || role == JsString("assistant"))
      && content.JsString?
      && |content.s| > 0
      && |content.s| <= MAX_MESSAGE_LENGTH
  }

  /**
   * `limitConversationHistory`: the input itself when it fits; otherwise
   * `slice(-maxLength)`, which keeps the last `maxLength` entries for a
   * positive limit, everything for a limit of 0 (`slice(-0)` is
   * `slice(0)`), and drops the first `-maxLength` entries for a negative one.
   */
  function LimitConversationHistory<T>(messages: seq<T>, maxLength: int): (r: seq<T>)
    ensures |messages| <= maxLength ==> r == messages
    ensures maxLength >= 1 ==> |r| == Min(|messages|, maxLength) && r == messages[|messages| - |r|..]
    ensures maxLength == 0 ==> r == messages
    ensures maxLength < 0 ==> r == messages[Min(-maxLength, |messages|)..]
  {
    if |messages| <= maxLength then messages else SliceFrom(messages, -maxLength)
  }

  /** The history limit with its default of 20 entries. */
  function LimitConversationHistoryDefault<T>(messages: seq<T>): (r: seq<T>)
    ensures |r| == Min(|messages|, 20) && r == messages[|messages| - |r|..]
  {
    LimitConversationHistory(messages, MAX_CONVERSATION_LENGTH)
  }
}

=== FILE: wrappers.dfy ===
/** Optional values and results shared by the validators and state machines. */
module Wrappers {

  /** A value that may be absent, as JavaScript's `undefined`-or-value. */
  datatype Option<+T> = None | Some(value: T)

  /** The outcome of a check that either yields a value or names the first failure. */
  datatype Result<+R, +E> = Success(value: R) | Failure(error: E)
}
